=== FILE: README.md ===
# Great Minds Alike, modelled in Dafny

Great Minds Alike is a party game. A host launches a round with one question.
Participants open a join link and each submits one answer. The host's screen
groups the answers case-insensitively and shows them as a cloud of blocks.
When the host reveals the round, the most popular answer or answers win.

This project models the logic behind that flow and proves what it promises:

- `text.dfy` (`Text`): ECMAScript `trim` with its exact white-space set,
  lower-casing, and the grouping key (trim, then lower-case).
- `game_logic.dfy` (`GameLogic`): `groupAnswers`. It is modelled as the
  grouping loop over an insertion-ordered map, then winner marking, then a
  stable sort. It is checked against reference definitions: first
  occurrence, names per key, non-blank count.
- `game_examples.dfy` (`GameExamples`): concrete runs, including one showing
  that the result depends on the order the answers arrive in.
- `answer_cloud.dfy` (`AnswerCloud`): the block colour, block size and clamped
  draw position, and the rebuild of the node list that keeps layout positions
  across updates.
- `participant.dfy` (`Participant`): the participant page as a state machine
  over the stages loading, answer, waiting, revealed and error.
- `host.dfy` (`Host`): the host page as a state machine over the statuses
  waiting, active and revealed. It includes the invariant that, once the
  regrouping effect has run, the groups shown are `groupAnswers` of the
  answers received, and the join link.
- `records.dfy` and `wrappers.dfy`: the `sessions` and `answers` row shapes,
  and `Option`/`Result`.

Most asynchronous handlers are split into the request they send and a later
event that carries the store's reply. The exception is the host's launch
handler: `Host.StartPressed` carries the store's reply to the session insert,
so the request and its reply form one event. Every transition is a pure
function from (state, event) to (state, requests). Realtime notifications are
events too.

The aggregation is sometimes described as independent of the order answers
arrive in. The code is only partly so, and the model follows the code:

- Independent of order: the same answers in any order give the same keys,
  and for each key the same count, winner flag and points
  (`GameLogic.GroupingIgnoresOrder`).
- Dependent on order: the display text is the casing of the first answer
  with a key, participants are listed in arrival order, and tied groups keep
  first-seen order. `GameExamples.ArrivalOrderMatters` shows two orders of
  the same two rows giving different results.

A freshly placed cloud node is sometimes described as never starting at the
origin. That holds only when the viewport is wider or taller than 80 pixels.
`AnswerCloud.FreshNodeAtOrigin` shows an 80 by 80 viewport where it does
start there. What is drawn never sits at the origin, because the draw
position is clamped (`AnswerCloud.NeverDrawnAtOrigin`).

## Model

| member | source | states |
|---|---|---|
| Text.LowerChar | lib/gameLogic.ts:17 | an ASCII capital maps to its small letter, 32 code points up; any other character is kept |
| Text.TrimSpec | lib/gameLogic.ts:17 | `trim` cuts only white space from the two ends and leaves a slice of the input that starts and ends with a non-space character; it is empty exactly when the input is all white space |
| Text.ToLowerSpec | lib/gameLogic.ts:17 | lower-casing keeps the length and maps every character on its own |
| Text.TrimIdempotent | app/join/page.tsx:69 | trimming an already trimmed answer changes nothing |
| Text.KeyBlankIff | lib/gameLogic.ts:17-18 | an answer's key is empty exactly when the answer is white space only, so exactly those answers are skipped |
| Text.KeyOfTrim | app/join/page.tsx:69 | the trimmed text a participant submits has the same grouping key as the text typed |
| GameLogic.IndexOfKey | lib/gameLogic.ts:19-20 | the map lookup finds a group with the key when one exists, and reports none exactly when no group has it |
| GameLogic.MaxCount | lib/gameLogic.ts:36 | the largest count bounds every count, is reached by some group, and is 0 for no groups |
| GameLogic.CollectGrouped | lib/gameLogic.ts:14-33 | after the loop, there is one group per distinct non-blank key, in first-seen order. Each group holds the first answer's trimmed text and all names with its key, in input order. Counts are the number of names and sum to the non-blank answers. Nothing is scored yet |
| GameLogic.InsertGroup | lib/gameLogic.ts:44-47 | insertion into an ordered list is a permutation that keeps the list ordered under the comparator |
| GameLogic.SortGroups | lib/gameLogic.ts:44-47 | the sort returns a permutation of its input that no comparator step would reorder |
| GameLogic.SortGroupsStable | lib/gameLogic.ts:44-47 | the sort is stable: groups the comparator ties keep their input order |
| GameLogic.SortGroupsKeeps | lib/gameLogic.ts:44-47 | the sort keeps the sum of the counts and keeps the keys distinct |
| GameLogic.GroupsAreTallies | lib/gameLogic.ts:14-35 | the result has pairwise distinct keys, exactly the non-blank answer keys. Each group is the tally of its key: first trimmed text, all names in order, count equal to the number of names. The counts sum to the number of non-blank answers |
| GameLogic.BlankAnswersNeverGrouped | lib/gameLogic.ts:17-18 | the result is empty exactly when every answer is blank, including for no answers |
| GameLogic.DisplayMatchesKey | lib/gameLogic.ts:17-26 | every group shows trimmed, non-blank text whose lower-casing is the group's key |
| GameLogic.WinnersHaveMaxCount | lib/gameLogic.ts:36-40 | a group wins exactly when no group has a larger count; winners get 4 points and the rest 0; a non-empty result starts with a winner |
| GameLogic.GroupsOrdered | lib/gameLogic.ts:35-47 | winners come before all other groups, counts never increase along the result, and groups of equal count appear in the order their keys first occur |
| GameExamples.PizzaExample | lib/gameLogic.ts:11-48 | "Pepperoni", "pepperoni " and "Mushroom" give a winning Pepperoni group of two (4 points) followed by a Mushroom group of one (0 points) |
| GameExamples.SameKeyTwice | lib/gameLogic.ts:16-40 | two answers with one key make a single winning group that shows the first one's text and lists both names in arrival order |
| GameLogic.KeyCountPermutation | lib/gameLogic.ts:16-22 | reordering the answers does not change how many of them have a given key |
| GameLogic.SameKeys | lib/gameLogic.ts:14-35 | the same answers in another order give the same set of group keys |
| GameLogic.SameKeySameCount | lib/gameLogic.ts:19-22 | for the same answers in any two orders, any two groups with the same key have the same count |
| GameLogic.CountsMatched | lib/gameLogic.ts:14-36 | for the same answers in two orders, every count in one result is the count of some group in the other |
| GameLogic.SameKeySameWinner | lib/gameLogic.ts:36-40 | for the same answers in two orders, a key whose group wins in one result also wins in the other |
| GameLogic.GroupingIgnoresOrder | lib/gameLogic.ts:14-40 | for the same answers in any order, the keys are equal, and each key's group has the same count, winner flag and points |
| GameExamples.ArrivalOrderMatters | lib/gameLogic.ts:19-26 | the same two rows in the two arrival orders give groups with different display text and participant order |
| AnswerCloud.PickColor | components/AnswerCloud.tsx:39-42 | a block's colour is a palette entry at lightness 52% |
| AnswerCloud.PickColorPeriodic | components/AnswerCloud.tsx:40 | the colour depends only on the position modulo the palette size of 7 |
| AnswerCloud.PickColorDistinct | components/AnswerCloud.tsx:29-40 | any seven neighbouring positions get seven different colours |
| AnswerCloud.Clamp | components/AnswerCloud.tsx:66-67 | between ordered bounds the clamp keeps a value in range, and a value below or above moves to that bound; crossed bounds give the lower bound |
| AnswerCloud.ClampIsNearest | components/AnswerCloud.tsx:66-67 | between ordered bounds the clamp lies in the interval and is no farther from the value than any point of the interval |
| AnswerCloud.BlockDims | components/AnswerCloud.tsx:44-48 | the width is the text's characters times 9 plus 32, moved into 90..240 when outside it. Up to the maximum count the height is 44 plus the count's share of 66, under 110 below the maximum and 110 at it; a count above the maximum gives 110 |
| AnswerCloud.ShareBounds | components/AnswerCloud.tsx:46 | a group's share of the largest count is never negative, below 1 under the largest, and exactly 1 at it |
| AnswerCloud.BlockWidthMonotone | components/AnswerCloud.tsx:45 | longer display text never gives a narrower block |
| AnswerCloud.BlockHeightMonotone | components/AnswerCloud.tsx:46 | a larger count never gives a shorter block |
| AnswerCloud.SafeTranslate | components/AnswerCloud.tsx:55-69 | the draw point is at least half a block from the top-left edges. It is inside the far edges when the block fits. A missing coordinate is drawn at the centre. An in-range coordinate is kept, and one outside the range moves to the nearest allowed edge. A block too big for the viewport is drawn half a block in |
| AnswerCloud.DrawnInsideViewport | components/AnswerCloud.tsx:64-67 | a block that fits the viewport is drawn entirely inside it, whatever its coordinates |
| AnswerCloud.FindNode | components/AnswerCloud.tsx:97 | the lookup returns the first previous node with the id, or none exactly when no previous node has it |
| AnswerCloud.LayoutMax | components/AnswerCloud.tsx:93 | the count used to scale heights bounds every group's count and is either 1 or the count of some group, so it is the largest count, or 1 when no count exceeds 1 |
| AnswerCloud.FullHeightIffLargest | components/AnswerCloud.tsx:93-98 | in a non-empty viewport, a rebuilt block is full height exactly when no other group has a larger count |
| AnswerCloud.WinnersDrawnFullHeight | components/AnswerCloud.tsx:93-98 | for the groups of a round, a block is drawn at full height exactly when its group is a winner |
| AnswerCloud.RebuildNodes | components/AnswerCloud.tsx:78-113 | an empty viewport keeps the previous nodes; otherwise there is one node per group |
| AnswerCloud.RebuiltNodeShape | components/AnswerCloud.tsx:96-112 | node i carries group i's key and group, the colour of position i, its group's size, finite coordinates and zero velocity |
| AnswerCloud.ReusedPositionKept | components/AnswerCloud.tsx:97-108 | a node whose id had a previous node with a finite coordinate keeps that coordinate |
| AnswerCloud.FreshPositionNearCentre | components/AnswerCloud.tsx:107-108 | a coordinate with nothing finite to reuse starts within 40 pixels of the viewport centre |
| AnswerCloud.FreshNodeOffOrigin | components/AnswerCloud.tsx:107-108 | a brand-new node does not start at the origin in a viewport wider or taller than 80 pixels |
| AnswerCloud.FreshNodeAtOrigin | components/AnswerCloud.tsx:107-108 | in an 80 by 80 viewport, a brand-new node with a zero random draw starts exactly at the origin |
| AnswerCloud.NeverDrawnAtOrigin | components/AnswerCloud.tsx:45-67 | every rebuilt node is drawn at least 45 pixels from the left edge and at least 22 from the top |
| AnswerCloud.GrowingGroupKeepsItsPlace | components/AnswerCloud.tsx:96-110 | after A alone, the groups A (grown) and B give A its old coordinates back and give B a jittered start around the centre |
| Participant.Init | app/join/page.tsx:21-32 | a missing or empty `s` parameter goes straight to the error stage with the no-session message and sends nothing; otherwise the page is loading and fetches that session |
| Participant.FetchOutcome | app/join/page.tsx:33-40 | a failed fetch or missing row gives the not-found error. A row is cached, and the stage is revealed exactly when the row is revealed, else the answer form, including for waiting and finished. Nothing but the cached row, the stage and, on failure, the error message changes |
| Participant.UpdateOutcome | app/join/page.tsx:52-56 | an update for the session replaces the cached row; a revealed row moves to the revealed stage; any other status leaves the stage alone. Nothing but the cached row and the stage changes |
| Participant.UpdateIdempotent | app/join/page.tsx:52-56 | delivering the same update twice gives the same page as delivering it once |
| Participant.SubmitGesture | app/join/page.tsx:142-147 | Enter in the answer form always reaches the submit handler; a click reaches it only when the button is enabled; otherwise neither gesture does anything |
| Participant.BlankSubmitIgnored | app/join/page.tsx:63 | submitting a blank answer, or without a session id, changes nothing and sends nothing |
| Participant.SubmitSendsTrimmedRow | app/join/page.tsx:62-70 | a submission that goes through sends exactly one insert of the trimmed, non-blank answer under the name "Anonymous" for the page's session, and sets the submitting flag |
| Participant.SubmitResult | app/join/page.tsx:72-78 | an insert reply clears the submitting flag; success goes to waiting, and an error goes to the error stage with "Could not submit your answer: " and the store's message. Nothing but the submission state, the stage and, on error, the error message changes |
| Participant.LateReplyHidesReveal | app/join/page.tsx:52-78 | a successful insert reply that arrives after the reveal notification takes the page from the results back to waiting |
| Participant.DoubleEnterInsertsTwice | app/join/page.tsx:142-147 | as written, two Enter presses before the first reply send the same insert twice and leave two inserts in flight |
| Participant.GuardedStep | app/join/page.tsx:142-147 | with the button's check on the key handler, no event sends a request while a submission is in flight; when none is, every event is handled as the page does |
| Participant.GuardedStepKeepsOneInsert | app/join/page.tsx:142-147 | with that check, every event keeps at most one insert in flight, the one the submitting flag stands for |
| Participant.RunKeepsOneInsert | app/join/page.tsx:62-79 | along any sequence of events, with that check, the page never has more than one insert in flight |
| Host.InitialWf | app/page.tsx:16-22 | the first render satisfies the page invariant: waiting, with no session, no answers and no groups |
| Host.StepKeepsWf | app/page.tsx:36-101 | every event keeps the invariant. The groups are those of the answers. The page waits exactly when it has no session, and then has no answers or question. A round's question is trimmed and non-blank. `revealed` holds exactly in the revealed status. Every answer belongs to the session |
| Host.RunKeepsWf | app/page.tsx:36-101 | every state reached along any sequence of events satisfies the invariant |
| Host.StartOutcome | app/page.tsx:59-80 | a blank question does nothing. Otherwise one active session is requested for the trimmed question. A failure leaves the page as it was. A created row starts an active, unrevealed round on its id with no answers or groups |
| Host.RevealOutcome | app/page.tsx:82-91 | without a session, reveal does nothing; with one, it marks the round revealed, asks the store to do the same, and changes nothing else: the answers, groups, session, question and question input are kept |
| Host.ResetOutcome | app/page.tsx:93-101 | reset forgets the session, the question, the input, the answers and groups, and returns to waiting |
| Host.InsertOutcome | app/page.tsx:37-52 | an insert for the current session appends exactly that row after the existing answers and regroups; rows for other sessions, or with no session, are ignored. Nothing but the answers and the groups ever changes |
| Host.RevealOnlyFromActiveWithAnswers | app/page.tsx:213-218 | the reveal button acts only in an active round with at least one answer, and there it reveals |
| Host.RevealedRoundHasWinner | app/page.tsx:213-218 | when every answer is non-blank, as the participant page ensures, a round with answers has groups, led by a winner |
| Host.JoinUrlShape | app/page.tsx:103-105 | the join link exists exactly when there is a session; it starts with the origin and ends with `/join?s=` and the session id |
| Host.JoinLinkLoadsSession | app/page.tsx:103-105 | a participant page opened with that id as its `s` parameter loads exactly that session |

## Left out

- The row-store client and its lazy singleton (lib/supabase.ts) are left out. Only the `sessions` and `answers` row shapes are modelled. Store replies arrive as events.
- Subscribing to and unsubscribing from realtime channels are left out. Notifications are events. A channel's row filter is modelled by ignoring rows of other sessions.
- The d3 force simulation, its tick loop and its cancellation are left out: this is floating-point physics and frame scheduling. The nodes the rebuild hands to the simulation are modelled. Their later movement is not.
- `collisionR` is left out: it is a floating-point square root used only by the simulation.
- The reveal fade, SVG and DOM construction, the framer-motion markup, `Leaderboard`, window resize measurement, the clipboard, the failed-launch `alert` and `next.config.ts` are left out. All of them are rendering or environment.
- `Math.random()` is not modelled as randomness. Each group receives two draws as parameters, and lemmas about fresh positions assume the draws lie in [0, 1).
- The multi-question flow (advancing, ending, per-question filtering) is not modelled, because the page code never exercises it. The host creates single-question sessions and participants never send a question index.
- Text.LowerChar: lower-cases ASCII letters only. `toLowerCase` also maps non-ASCII letters, so two keys that differ only in non-ASCII case group together in the program but not in the model.
- AnswerCloud.BlockDims: the width uses the number of Unicode characters of the display text. The source's `length` counts UTF-16 code units, so text outside the Basic Multilingual Plane is narrower in the model.
- AnswerCloud.SafeTranslate: coordinates are exact reals, so floating-point rounding and the formatting of the `translate(...)` string are not modelled. A colour is a record rather than the `hsl(...)` string.
- Host.StartOutcome: a launch and the store's reply are one event, so two launches overlapping in flight are not modelled.
- The `finished` status is kept in the row shape. No modelled handler produces it.
- Host.StepKeepsWf: the effect that regroups the answers whenever they change is folded into the insert event, so the one render that shows the new answer count beside the previous groups is not modelled.
- Host.JoinLinkLoadsSession: the decoding done by `searchParams.get` is not modelled. Session ids are taken to be URL-safe, as the store's UUIDs are, so the link's `s` parameter reads back as the id.
- Host.JoinUrl: the page origin, which is empty during server rendering, and the base-path variable are parameters.
- GameLogic.MaxCount: total. The source spreads every group into one `Math.max` call. For very many groups, more than the engine's argument limit, that call throws a `RangeError` and grouping fails. The model has no such error path.
- AnswerCloud.LayoutMax: total, for the same reason. The source's `Math.max(1, ...counts)` spreads every group into one call, and very many groups make it throw.

## Findings

| source | as written | input that shows it | evidently intended | confidence | as-written member | corrected member |
|---|---|---|---|---|---|---|
| app/join/page.tsx:142 | the answer input's Enter handler calls `handleSubmitAnswer`, which never checks `submitting`; only the button is disabled while a submission is in flight | type "x" and press Enter twice before the first insert returns | Enter does nothing while submitting, as the button does, so one answer is inserted once | not executed; high that a second insert is sent, the store may still reject it | Participant.DoubleEnterInsertsTwice | Participant.GuardedStepKeepsOneInsert |

=== FILE: answer_cloud.dfy ===
/**
 * The pure pieces of the answer cloud (components/AnswerCloud.tsx): the
 * colour of each block, its size, the clamp that keeps a block inside the
 * viewport, and the rebuild of the node list whenever the groups or the
 * viewport change. Coordinates are reals; a coordinate that is `undefined`,
 * `NaN` or infinite in the source is `None` here.
 */
module AnswerCloud {
  import opened Wrappers
  import opened GameLogic
  import Records

  /** Block sizes, in pixels. */
  const MinW: real := 90.0
  const MaxW: real := 240.0
  const MinH: real := 44.0
  const MaxH: real := 110.0
  /** Width allowed per character of the display text, and the horizontal padding. */
  const CharW: real := 9.0
  const PadX: real := 32.0

  /** Fresh nodes start at most this far from the centre on each axis. */
  const Spread: real := 80.0

  /** A colour `hsl(hue, saturation%, lightness%)`. */
  datatype Hsl = Hsl(hue: int, saturation: int, lightness: int)

  /** The hue and saturation of each palette entry. */
  const BaseColors: seq<(int, int)> := [(210, 85), (160, 80), (280, 75), (340, 80), (35, 85), (145, 70), (195, 80)]

  /** Every palette colour has this lightness. */
  const Lightness: int := 52

  /** The colour of the block at position `index`: the palette, cycled. */
  function PickColor(index: nat): (c: Hsl)
    ensures c.lightness == Lightness
    ensures (c.hue, c.saturation) in BaseColors
  {
    var hs := BaseColors[index % |BaseColors|];
    Hsl(hs.0, hs.1, Lightness)
  }

  /** The colour depends only on the position modulo the palette size. */
  lemma PickColorPeriodic(index: nat)
    ensures PickColor(index) == PickColor(index % 7)
    ensures PickColor(index + 7) == PickColor(index)
  {
  }

  /** Any seven neighbouring blocks all have different colours. */
  lemma PickColorDistinct(i: nat, j: nat)
    requires i < j < i + 7
    ensures PickColor(i) != PickColor(j)
  {
    assert i % 7 != j % 7;
  }

  function Min(a: real, b: real): real { if a <= b then a else b }
  function Max(a: real, b: real): real { if a >= b then a else b }

  /** `Math.max(lo, Math.min(hi, v))`. */
  function Clamp(lo: real, hi: real, v: real): (r: real)
    ensures r >= lo
    ensures lo <= hi ==> r <= hi
    ensures lo <= v <= hi ==> r == v
    ensures lo <= hi && v < lo ==> r == lo
    ensures lo <= hi && hi < v ==> r == hi
    ensures hi < lo ==> r == lo
  {
    Max(lo, Min(hi, v))
  }

  function Abs(x: real): real { if x < 0.0 then -x else x }

  /** Between ordered bounds, the clamp is the point of the interval nearest to the value. */
  lemma ClampIsNearest(lo: real, hi: real, v: real, z: real)
    requires lo <= hi && lo <= z <= hi
    ensures lo <= Clamp(lo, hi, v) <= hi
    ensures Abs(Clamp(lo, hi, v) - v) <= Abs(z - v)
  {
  }

  /** Width and height of a block. */
  datatype Dims = Dims(w: real, h: real)

  /**
   * The size of a group's block: the width follows the length of the display
   * text, the height follows the group's share of the largest count; both
   * are clamped to the block limits.
   */
  function BlockDims(g: AnswerGroup, maxCount: nat): (d: Dims)
    requires maxCount >= 1
    ensures MinW <= d.w <= MaxW
    ensures var raw := |g.display| as real * CharW + PadX;
            && (MinW <= raw <= MaxW ==> d.w == raw)
            && (raw < MinW ==> d.w == MinW)
            && (MaxW < raw ==> d.w == MaxW)
    ensures MinH <= d.h <= MaxH
    ensures g.count <= maxCount ==> d.h == MinH + (g.count as real / maxCount as real) * (MaxH - MinH)
    ensures g.count == maxCount ==> d.h == MaxH
    ensures g.count < maxCount ==> d.h < MaxH
    ensures g.count > maxCount ==> d.h == MaxH
  {
    var w := Min(MaxW, Max(MinW, |g.display| as real * CharW + PadX));
    ShareBounds(g.count, maxCount);
    var h := Min(MaxH, MinH + (g.count as real / maxCount as real) * (MaxH - MinH));
    Dims(w, h)
  }

  /** A count's share of the largest count is not negative, at most 1 when the count is within it, and 1 at it. */
  lemma ShareBounds(count: nat, maxCount: nat)
    requires maxCount >= 1
    ensures count as real / maxCount as real >= 0.0
    ensures count <= maxCount ==> count as real / maxCount as real <= 1.0
    ensures count == maxCount ==> count as real / maxCount as real == 1.0
    ensures count < maxCount ==> count as real / maxCount as real < 1.0
    ensures count > maxCount ==> count as real / maxCount as real > 1.0
  {
    var m := maxCount as real;
    var q := count as real / m;
    assert q * m == count as real;
    assert (q - 1.0) * m == count as real - m;
  }

  /** A longer display text never makes a block narrower. */
  lemma BlockWidthMonotone(g1: AnswerGroup, g2: AnswerGroup, maxCount: nat)
    requires maxCount >= 1 && |g1.display| <= |g2.display|
    ensures BlockDims(g1, maxCount).w <= BlockDims(g2, maxCount).w
  {
  }

  /** A larger count never makes a block shorter. */
  lemma BlockHeightMonotone(g1: AnswerGroup, g2: AnswerGroup, maxCount: nat)
    requires maxCount >= 1 && g1.count <= g2.count
    ensures BlockDims(g1, maxCount).h <= BlockDims(g2, maxCount).h
  {
    var a := g1.count as real / maxCount as real;
    var b := g2.count as real / maxCount as real;
    var m := maxCount as real;
    assert b - a == (g2.count - g1.count) as real / m;
    DivNonNegative((g2.count - g1.count) as real, m);
  }

  lemma DivNonNegative(x: real, m: real)
    requires x >= 0.0 && m > 0.0
    ensures x / m >= 0.0
  {
    assert (x / m) * m == x;
  }

  /** One block of the cloud. `x` and `y` are `None` where the source holds a non-finite number. */
  datatype Node = Node(
    id: string,
    group: AnswerGroup,
    w: real,
    h: real,
    color: Hsl,
    x: Option<real>,
    y: Option<real>,
    vx: real,
    vy: real)

  /** The point a block is drawn at: the block's centre inside a `width` by `height` viewport. */
  datatype Point = Point(x: real, y: real)

  /**
   * Where a node is drawn: a missing coordinate falls back to the centre of
   * the viewport, then each coordinate is clamped so that the block lies
   * inside the viewport.
   */
  function SafeTranslate(d: Node, width: real, height: real): (p: Point)
    ensures p.x >= d.w / 2.0 && p.y >= d.h / 2.0
    ensures d.w <= width ==> p.x <= width - d.w / 2.0
    ensures d.h <= height ==> p.y <= height - d.h / 2.0
    ensures d.x.None? && d.w <= width ==> p.x == width / 2.0
    ensures d.y.None? && d.h <= height ==> p.y == height / 2.0
    ensures d.x.Some? && d.w / 2.0 <= d.x.value <= width - d.w / 2.0 ==> p.x == d.x.value
    ensures d.y.Some? && d.h / 2.0 <= d.y.value <= height - d.h / 2.0 ==> p.y == d.y.value
    ensures d.x.Some? && d.w <= width && d.x.value < d.w / 2.0 ==> p.x == d.w / 2.0
    ensures d.x.Some? && d.w <= width && width - d.w / 2.0 < d.x.value ==> p.x == width - d.w / 2.0
    ensures d.y.Some? && d.h <= height && d.y.value < d.h / 2.0 ==> p.y == d.h / 2.0
    ensures d.y.Some? && d.h <= height && height - d.h / 2.0 < d.y.value ==> p.y == height - d.h / 2.0
    ensures width < d.w ==> p.x == d.w / 2.0
    ensures height < d.h ==> p.y == d.h / 2.0
  {
    var cx := width / 2.0;
    var cy := height / 2.0;
    var hw := d.w / 2.0;
    var hh := d.h / 2.0;
    var rx := if d.x.Some? then d.x.value else cx;
    var ry := if d.y.Some? then d.y.value else cy;
    Point(Clamp(hw, width - hw, rx), Clamp(hh, height - hh, ry))
  }

  /** The first previous node with the given id (`Array.prototype.find`). */
  function FindNode(nodes: seq<Node>, id: string): (r: Option<Node>)
    ensures r.Some? ==> exists k :: 0 <= k < |nodes| && nodes[k] == r.value && nodes[k].id == id
                                    && forall j :: 0 <= j < k ==> nodes[j].id != id
    ensures r.None? ==> forall n :: n in nodes ==> n.id != id
  {
    if |nodes| == 0 then None
    else if nodes[0].id == id then Some(nodes[0])
    else
      var r := FindNode(nodes[1..], id);
      assert forall j :: 1 <= j < |nodes| ==> nodes[j] == nodes[1..][j - 1];
      r
  }

  /** `Math.max(1, ...counts)`: the largest count, or 1 when no count is larger. */
  function LayoutMax(groups: seq<AnswerGroup>): (m: nat)
    ensures m >= 1
    ensures forall i :: 0 <= i < |groups| ==> groups[i].count <= m
    ensures m == 1 || exists i :: 0 <= i < |groups| && groups[i].count == m
  {
    var c := MaxCount(groups);
    if c >= 1 then c else 1
  }

  /** A previous coordinate if it is finite, otherwise the centre moved by `(random - 0.5) * 80`. */
  function StartCoord(previous: Option<real>, centre: real, random: real): real
  {
    if previous.Some? then previous.value else centre + (random - 0.5) * Spread
  }

  /** The coordinates a reused node had: none when there was no node with that id. */
  function PreviousX(existing: Option<Node>): Option<real>
  {
    if existing.Some? then existing.value.x else None
  }

  function PreviousY(existing: Option<Node>): Option<real>
  {
    if existing.Some? then existing.value.y else None
  }

  /** The node of the group at position `i`, built against the previous nodes. */
  function NewNode(g: AnswerGroup, i: nat, prev: seq<Node>, maxCount: nat,
                   width: real, height: real, random: (real, real)): Node
    requires maxCount >= 1
  {
    var existing := FindNode(prev, g.normalised);
    var d := BlockDims(g, maxCount);
    Node(g.normalised, g, d.w, d.h, PickColor(i),
         Some(StartCoord(PreviousX(existing), width / 2.0, random.0)),
         Some(StartCoord(PreviousY(existing), height / 2.0, random.1)),
         0.0, 0.0)
  }

  /**
   * The node list after the groups or the viewport change. An empty viewport
   * keeps the previous nodes; no groups clears them; otherwise there is one
   * node per group. `random` holds the two `Math.random()` draws each group
   * may use.
   */
  function RebuildNodes(groups: seq<AnswerGroup>, prev: seq<Node>, width: real, height: real,
                        random: seq<(real, real)>): (nodes: seq<Node>)
    requires |random| == |groups|
    ensures width <= 0.0 || height <= 0.0 ==> nodes == prev
    ensures width > 0.0 && height > 0.0 ==> |nodes| == |groups|
  {
    if width <= 0.0 || height <= 0.0 then prev
    else if |groups| == 0 then []
    else
      var m := LayoutMax(groups);
      seq(|groups|, i requires 0 <= i < |groups| => NewNode(groups[i], i, prev, m, width, height, random[i]))
  }

  /** In a non-empty viewport, a block is drawn at full height exactly when its group has the largest count. */
  lemma FullHeightIffLargest(groups: seq<AnswerGroup>, prev: seq<Node>, width: real, height: real,
                             random: seq<(real, real)>, i: nat)
    requires |random| == |groups| && width > 0.0 && height > 0.0 && i < |groups|
    requires groups[i].count >= 1
    ensures RebuildNodes(groups, prev, width, height, random)[i].h == MaxH <==>
            forall j :: 0 <= j < |groups| ==> groups[j].count <= groups[i].count
  {
    var m := LayoutMax(groups);
    assert RebuildNodes(groups, prev, width, height, random)[i].h == BlockDims(groups[i], m).h;
    if forall j :: 0 <= j < |groups| ==> groups[j].count <= groups[i].count {
      assert m == groups[i].count;
    } else {
      var j :| 0 <= j < |groups| && groups[j].count > groups[i].count;
      assert groups[i].count < m;
    }
  }

  /** The winning groups of a round, and only they, are drawn at full height. */
  lemma WinnersDrawnFullHeight(answers: seq<Records.Answer>, prev: seq<Node>, width: real, height: real,
                               random: seq<(real, real)>, i: nat)
    requires |random| == |GroupAnswers(answers)| && width > 0.0 && height > 0.0 && i < |GroupAnswers(answers)|
    ensures RebuildNodes(GroupAnswers(answers), prev, width, height, random)[i].h == MaxH <==>
            GroupAnswers(answers)[i].isWinner
  {
    var r := GroupAnswers(answers);
    OutputTallies(Entries(answers));
    WinnersHaveMaxCount(answers);
    assert r[i] in r;
    FullHeightIffLargest(r, prev, width, height, random, i);
    if r[i].isWinner {
      assert forall j :: 0 <= j < |r| ==> r[j].count <= r[i].count by {
        forall j | 0 <= j < |r| ensures r[j].count <= r[i].count {
          assert r[j] in r;
        }
      }
    }
  }

  /** Each `Math.random()` draw lies in [0, 1). */
  predicate Draws(random: seq<(real, real)>) {
    forall i :: 0 <= i < |random| ==> 0.0 <= random[i].0 < 1.0 && 0.0 <= random[i].1 < 1.0
  }

  /**
   * In a non-empty viewport, node `i` belongs to group `i`: same id and group,
   * the palette colour of its position, the size of its group against the
   * largest count, finite coordinates and no velocity.
   */
  lemma RebuiltNodeShape(groups: seq<AnswerGroup>, prev: seq<Node>, width: real, height: real,
                         random: seq<(real, real)>, i: nat)
    requires |random| == |groups| && width > 0.0 && height > 0.0 && i < |groups|
    ensures var n := RebuildNodes(groups, prev, width, height, random)[i];
            && n.id == groups[i].normalised && n.group == groups[i]
            && n.color == PickColor(i)
            && Dims(n.w, n.h) == BlockDims(groups[i], LayoutMax(groups))
            && n.x.Some? && n.y.Some?
            && n.vx == 0.0 && n.vy == 0.0
  {
  }

  /**
   * Layout continuity: a node whose id had a previous node with a finite
   * coordinate keeps that coordinate.
   */
  lemma ReusedPositionKept(groups: seq<AnswerGroup>, prev: seq<Node>, width: real, height: real,
                           random: seq<(real, real)>, i: nat)
    requires |random| == |groups| && width > 0.0 && height > 0.0 && i < |groups|
    requires FindNode(prev, groups[i].normalised).Some?
    ensures var before := FindNode(prev, groups[i].normalised).value;
            var n := RebuildNodes(groups, prev, width, height, random)[i];
            && (before.x.Some? ==> n.x == before.x)
            && (before.y.Some? ==> n.y == before.y)
  {
  }

  /**
   * A coordinate with nothing finite to reuse starts within 40 pixels of the
   * centre of the viewport.
   */
  lemma FreshPositionNearCentre(groups: seq<AnswerGroup>, prev: seq<Node>, width: real, height: real,
                                random: seq<(real, real)>, i: nat)
    requires |random| == |groups| && Draws(random) && width > 0.0 && height > 0.0 && i < |groups|
    ensures var n := RebuildNodes(groups, prev, width, height, random)[i];
            var existing := FindNode(prev, groups[i].normalised);
            && (PreviousX(existing).None? ==>
                  width / 2.0 - Spread / 2.0 <= n.x.value < width / 2.0 + Spread / 2.0)
            && (PreviousY(existing).None? ==>
                  height / 2.0 - Spread / 2.0 <= n.y.value < height / 2.0 + Spread / 2.0)
  {
    assert 0.0 <= random[i].0 < 1.0 && 0.0 <= random[i].1 < 1.0;
  }

  /**
   * A brand-new node does not start at the origin once the viewport is wider
   * or taller than 80 pixels.
   */
  lemma FreshNodeOffOrigin(groups: seq<AnswerGroup>, prev: seq<Node>, width: real, height: real,
                           random: seq<(real, real)>, i: nat)
    requires |random| == |groups| && Draws(random) && width > 0.0 && height > 0.0 && i < |groups|
    requires FindNode(prev, groups[i].normalised).None?
    requires width > Spread || height > Spread
    ensures var n := RebuildNodes(groups, prev, width, height, random)[i];
            n.x != Some(0.0) || n.y != Some(0.0)
  {
    FreshPositionNearCentre(groups, prev, width, height, random, i);
  }

  /**
   * In a viewport of 80 by 80 pixels or smaller, a brand-new node can start
   * exactly at the origin: the draw 0 moves it 40 pixels left and up.
   */
  lemma FreshNodeAtOrigin()
    ensures var g := AnswerGroup("a", "a", 1, ["p"], true, WinnerPoints);
            var n := RebuildNodes([g], [], Spread, Spread, [(0.0, 0.0)])[0];
            n.x == Some(0.0) && n.y == Some(0.0)
  {
  }

  /** Wherever a node starts, it is drawn with its whole block inside a viewport that can hold it. */
  lemma DrawnInsideViewport(n: Node, width: real, height: real)
    requires n.w <= width && n.h <= height
    ensures var p := SafeTranslate(n, width, height);
            && n.w / 2.0 <= p.x <= width - n.w / 2.0
            && n.h / 2.0 <= p.y <= height - n.h / 2.0
  {
  }

  /** Whatever its coordinates, a node of the cloud is never drawn at the origin. */
  lemma NeverDrawnAtOrigin(groups: seq<AnswerGroup>, prev: seq<Node>, width: real, height: real,
                           random: seq<(real, real)>, i: nat)
    requires |random| == |groups| && width > 0.0 && height > 0.0 && i < |groups|
    ensures var p := SafeTranslate(RebuildNodes(groups, prev, width, height, random)[i], width, height);
            p.x >= MinW / 2.0 && p.y >= MinH / 2.0
  {
    RebuiltNodeShape(groups, prev, width, height, random, i);
  }

  /**
   * A group that grows and is joined by another keeps its node's position:
   * after the cloud holds A alone, the groups A (now larger) and B give A
   * its old coordinates back and give B a fresh start.
   */
  lemma GrowingGroupKeepsItsPlace(a1: AnswerGroup, a5: AnswerGroup, b: AnswerGroup,
                                  width: real, height: real, r1: seq<(real, real)>, r2: seq<(real, real)>)
    requires a1.normalised == a5.normalised && b.normalised != a1.normalised
    requires |r1| == 1 && |r2| == 2 && width > 0.0 && height > 0.0
    ensures var first := RebuildNodes([a1], [], width, height, r1);
            var second := RebuildNodes([a5, b], first, width, height, r2);
            && second[0].x == first[0].x && second[0].y == first[0].y
            && second[0].group == a5
            && second[1].x == Some(width / 2.0 + (r2[1].0 - 0.5) * Spread)
            && second[1].y == Some(height / 2.0 + (r2[1].1 - 0.5) * Spread)
  {
    var first := RebuildNodes([a1], [], width, height, r1);
    assert FindNode(first, a5.normalised) == Some(first[0]);
    assert FindNode(first, b.normalised) == None;
  }
}

=== FILE: game_examples.dfy ===
/**
 * Concrete runs of `groupAnswers` on small answer lists, including the one
 * that shows the result depends on the order the answers arrive in.
 */
module GameExamples {
  import opened Text
  import opened GameLogic
  import opened Wrappers
  import Records

  /** An answer row of one session, with the fields grouping does not read left at fixed values. */
  function Row(name: string, text: string): (a: Records.Answer)
    ensures a.participantName == name && a.answer == text
  {
    Records.Answer("", "s", name, text, 0, "")
  }

  /** Lower-casing, checked character by character. */
  lemma LowerIs(s: string, t: string)
    requires |s| == |t| && forall i :: 0 <= i < |s| ==> LowerChar(s[i]) == t[i]
    ensures ToLower(s) == t
  {
    ToLowerSpec(s);
  }

  /** A string with no white space at either end is its own trim. */
  lemma TrimmedAlready(s: string)
    requires |s| > 0 && !IsSpace(s[0]) && !IsSpace(s[|s| - 1])
    ensures Trim(s) == s
  {
  }

  lemma PepperoniKey()
    ensures Trim("Pepperoni") == "Pepperoni" && Key("Pepperoni") == "pepperoni"
  {
    TrimmedAlready("Pepperoni");
    LowerIs("Pepperoni", "pepperoni");
  }

  lemma PepperoniSpaceKey()
    ensures Trim("pepperoni ") == "pepperoni" && Key("pepperoni ") == "pepperoni"
  {
    assert TrimStart("pepperoni ") == "pepperoni ";
    assert "pepperoni "[..9] == "pepperoni";
    assert TrimEnd("pepperoni ") == TrimEnd("pepperoni");
    TrimmedAlready("pepperoni");
    LowerIs("pepperoni", "pepperoni");
  }

  lemma MushroomKey()
    ensures Trim("Mushroom") == "Mushroom" && Key("Mushroom") == "mushroom"
  {
    TrimmedAlready("Mushroom");
    LowerIs("Mushroom", "mushroom");
  }

  /** Three participants name a pizza topping. */
  const PizzaRows: seq<Records.Answer> := [Row("Ann", "Pepperoni"), Row("Bo", "pepperoni "), Row("Cy", "Mushroom")]

  const Pepperoni2 := AnswerGroup("pepperoni", "Pepperoni", 2, ["Ann", "Bo"], false, 0)
  const Mushroom1 := AnswerGroup("mushroom", "Mushroom", 1, ["Cy"], false, 0)

  lemma AnnEntry()
    ensures Entries(PizzaRows)[0] == Entry("pepperoni", "Pepperoni", "Ann")
  {
    PepperoniKey();
  }

  lemma BoEntry()
    ensures Entries(PizzaRows)[1] == Entry("pepperoni", "pepperoni", "Bo")
  {
    PepperoniSpaceKey();
  }

  lemma CyEntry()
    ensures Entries(PizzaRows)[2] == Entry("mushroom", "Mushroom", "Cy")
  {
    MushroomKey();
  }

  lemma PizzaCollect(es: seq<Entry>)
    requires |es| == 3
    requires es[0] == Entry("pepperoni", "Pepperoni", "Ann") && es[1] == Entry("pepperoni", "pepperoni", "Bo")
    requires es[2] == Entry("mushroom", "Mushroom", "Cy")
    ensures Collect(es) == [Pepperoni2, Mushroom1]
  {
    var g1 := AnswerGroup("pepperoni", "Pepperoni", 1, ["Ann"], false, 0);
    assert Collect(es[..1]) == [g1];
    assert es[..2][..1] == es[..1];
    assert IndexOfKey([g1], "pepperoni") == Some(0);
    assert ["Ann"] + ["Bo"] == ["Ann", "Bo"];
    assert Absorb([g1], es[1]) == [g1][0 := Pepperoni2];
    assert Collect(es[..2]) == Absorb(Collect(es[..1]), es[1]);
    assert es[..3][..2] == es[..2];
    assert IndexOfKey([Pepperoni2], "mushroom") == None;
    assert Absorb([Pepperoni2], es[2]) == [Pepperoni2, Mushroom1];
    assert es == es[..3];
  }

  lemma PizzaSort()
    ensures SortGroups(Score([Pepperoni2, Mushroom1]))
            == [Pepperoni2.(isWinner := true, points := WinnerPoints), Mushroom1]
  {
    var s := Score([Pepperoni2, Mushroom1]);
    assert MaxCount([Pepperoni2, Mushroom1]) == 2;
    assert s == [Pepperoni2.(isWinner := true, points := WinnerPoints), Mushroom1];
    assert SortGroups(s[1..]) == [Mushroom1];
  }

  /** Two casings of one topping and one other topping: the topping given twice wins. */
  lemma PizzaExample()
    ensures GroupAnswers(PizzaRows)
            == [ AnswerGroup("pepperoni", "Pepperoni", 2, ["Ann", "Bo"], true, WinnerPoints),
                 AnswerGroup("mushroom", "Mushroom", 1, ["Cy"], false, 0) ]
  {
    var answers := PizzaRows;
    AnnEntry();
    BoEntry();
    CyEntry();
    PizzaCollect(Entries(answers));
    PizzaSort();
  }

  lemma ParisKeys()
    ensures Trim("Paris") == "Paris" && Key("Paris") == "paris"
    ensures Trim("paris") == "paris" && Key("paris") == "paris"
  {
    TrimmedAlready("Paris");
    TrimmedAlready("paris");
    LowerIs("Paris", "paris");
    LowerIs("paris", "paris");
  }

  /** Two answers with the same key make one winning group that keeps the first one's text. */
  lemma SameKeyTwice(es: seq<Entry>)
    requires |es| == 2 && es[0].key == es[1].key && es[0].key != []
    ensures GroupAnswersOf(es)
            == [AnswerGroup(es[0].key, es[0].text, 2, [es[0].name, es[1].name], true, WinnerPoints)]
  {
    var g1 := AnswerGroup(es[0].key, es[0].text, 1, [es[0].name], false, 0);
    var g2 := g1.(count := 2, participants := [es[0].name, es[1].name]);
    assert Collect(es[..1]) == [g1];
    assert es[..2][..1] == es[..1];
    assert [es[0].name] + [es[1].name] == [es[0].name, es[1].name];
    assert Absorb([g1], es[1]) == [g2];
    assert es == es[..2];
    assert Collect(es) == [g2];
    assert MaxCount([g2]) == 2;
    assert Score([g2]) == [g2.(isWinner := true, points := WinnerPoints)];
  }

  lemma ParisEntries()
    ensures Entries(ParisFirst)[0] == Entry("paris", "Paris", "Ann")
    ensures Entries(ParisFirst)[1] == Entry("paris", "paris", "Bo")
    ensures Entries(ParisLast)[0] == Entry("paris", "paris", "Bo")
    ensures Entries(ParisLast)[1] == Entry("paris", "Paris", "Ann")
  {
    ParisKeys();
  }

  /** "Paris" then "paris". */
  const ParisFirst: seq<Records.Answer> := [Row("Ann", "Paris"), Row("Bo", "paris")]

  /** The same two answers arriving the other way round. */
  const ParisLast: seq<Records.Answer> := [Row("Bo", "paris"), Row("Ann", "Paris")]

  /**
   * The result depends on the order the answers arrive in, not just on the
   * answers: the same two rows in either order give one winning group, but
   * its display text and the order of its participants follow the first
   * arrival.
   */
  lemma ArrivalOrderMatters()
    ensures multiset(ParisFirst) == multiset(ParisLast)
    ensures GroupAnswers(ParisFirst) == [AnswerGroup("paris", "Paris", 2, ["Ann", "Bo"], true, WinnerPoints)]
    ensures GroupAnswers(ParisLast) == [AnswerGroup("paris", "paris", 2, ["Bo", "Ann"], true, WinnerPoints)]
  {
    ParisFirstGroups();
    ParisLastGroups();
    assert ParisLast == [ParisFirst[1], ParisFirst[0]];
  }

  lemma ParisFirstGroups()
    ensures GroupAnswers(ParisFirst) == [AnswerGroup("paris", "Paris", 2, ["Ann", "Bo"], true, WinnerPoints)]
  {
    ParisEntries();
    SameKeyTwice(Entries(ParisFirst));
  }

  lemma ParisLastGroups()
    ensures GroupAnswers(ParisLast) == [AnswerGroup("paris", "paris", 2, ["Bo", "Ann"], true, WinnerPoints)]
  {
    ParisEntries();
    SameKeyTwice(Entries(ParisLast));
  }
}

=== FILE: game_logic.dfy ===
/**
 * Answer aggregation and scoring (lib/gameLogic.ts): raw answers are grouped
 * case-insensitively by their trimmed text, the groups with the largest count
 * win, and the groups are ordered winners first, then by descending count,
 * ties keeping the order in which their keys were first seen.
 *
 * `GroupAnswers` is written in three stages that follow the source:
 * `Collect` (the loop filling an insertion-ordered map), `Score` (marking
 * winners and points) and `SortGroups` (the stable `Array.prototype.sort`).
 */
module GameLogic {
  import opened Wrappers
  import opened Text
  import Records

  /** Points awarded to every winning group. */
  const WinnerPoints: nat := 4

  /** One group of equivalent answers. */
  datatype AnswerGroup = AnswerGroup(
    normalised: string,          // grouping key: trimmed, lower-cased answer
    display: string,             // trimmed text of the first answer with this key
    count: nat,
    participants: seq<string>,
    isWinner: bool,
    points: nat)

  // ---------------------------------------------------------------------------
  // Stage 1: grouping in first-seen order
  // ---------------------------------------------------------------------------

  /** Position of the group with key `key`, if there is one (the map lookup). */
  function IndexOfKey(gs: seq<AnswerGroup>, key: string): (r: Option<nat>)
    ensures r.Some? ==> r.value < |gs| && gs[r.value].normalised == key
    ensures r.None? ==> forall i :: 0 <= i < |gs| ==> gs[i].normalised != key
  {
    if |gs| == 0 then None
    else if gs[0].normalised == key then Some(0)
    else match IndexOfKey(gs[1..], key)
      case None => None
      case Some(i) => Some(i + 1)
  }

  /** What the grouping loop reads off one answer: its key, its trimmed text and its author. */
  datatype Entry = Entry(key: string, text: string, name: string)

  function EntryOf(a: Records.Answer): Entry
  {
    Entry(Key(a.answer), Trim(a.answer), a.participantName)
  }

  function Entries(answers: seq<Records.Answer>): (es: seq<Entry>)
    ensures |es| == |answers|
    ensures forall j :: 0 <= j < |answers| ==> es[j] == EntryOf(answers[j])
  {
    seq(|answers|, j requires 0 <= j < |answers| => EntryOf(answers[j]))
  }

  /** One iteration of the grouping loop: skip a blank key, extend a known group, or add a new one. */
  function Absorb(gs: seq<AnswerGroup>, a: Entry): seq<AnswerGroup>
  {
    var key := a.key;
    if key == [] then gs
    else match IndexOfKey(gs, key)
      case Some(i) =>
        gs[i := gs[i].(count := gs[i].count + 1, participants := gs[i].participants + [a.name])]
      case None =>
        gs + [AnswerGroup(key, a.text, 1, [a.name], false, 0)]
  }

  /** The grouping loop over all entries, in input order. */
  function Collect(answers: seq<Entry>): seq<AnswerGroup>
  {
    if |answers| == 0 then []
    else Absorb(Collect(answers[..|answers| - 1]), answers[|answers| - 1])
  }

  // ---------------------------------------------------------------------------
  // Stage 2: winners and points
  // ---------------------------------------------------------------------------

  /** `Math.max(0, ...counts)`: the largest count, 0 for no groups. */
  function MaxCount(gs: seq<AnswerGroup>): (m: nat)
    ensures forall i :: 0 <= i < |gs| ==> gs[i].count <= m
    ensures |gs| == 0 ==> m == 0
    ensures |gs| > 0 ==> exists i :: 0 <= i < |gs| && gs[i].count == m
  {
    if |gs| == 0 then 0
    else
      var rest := MaxCount(gs[1..]);
      if gs[0].count >= rest then gs[0].count
      else
        var j :| 0 <= j < |gs[1..]| && gs[1..][j].count == rest;
        assert gs[j + 1].count == rest;
        rest
  }

  /** Marks one group against the maximum count. */
  function Mark(g: AnswerGroup, maxCount: nat): AnswerGroup
  {
    var winner := g.count == maxCount && maxCount > 0;
    g.(isWinner := winner, points := if winner then WinnerPoints else 0)
  }

  /** Marks every group: winners are those whose count is the (positive) maximum. */
  function Score(gs: seq<AnswerGroup>): seq<AnswerGroup>
  {
    var m := MaxCount(gs);
    seq(|gs|, i requires 0 <= i < |gs| => Mark(gs[i], m))
  }

  // ---------------------------------------------------------------------------
  // Stage 3: stable sort, winners first, then by descending count
  // ---------------------------------------------------------------------------

  /** The comparator of the sort returns a negative number: `a` must come before `b`. */
  predicate Precedes(a: AnswerGroup, b: AnswerGroup) {
    if a.isWinner != b.isWinner then a.isWinner else a.count > b.count
  }

  /** Neither group must come before the other. */
  predicate Tie(a: AnswerGroup, b: AnswerGroup) {
    !Precedes(a, b) && !Precedes(b, a)
  }

  /** No later element must come before an earlier one. */
  predicate Sorted(s: seq<AnswerGroup>) {
    forall i, j :: 0 <= i < j < |s| ==> !Precedes(s[j], s[i])
  }

  /** Inserts `x` before the first element that does not have to precede it. */
  function InsertGroup(x: AnswerGroup, t: seq<AnswerGroup>): (r: seq<AnswerGroup>)
    requires Sorted(t)
    ensures multiset(r) == multiset(t) + multiset{x}
    ensures Sorted(r)
  {
    if |t| == 0 then [x]
    else if Precedes(t[0], x) then
      var rest := InsertGroup(x, t[1..]);
      assert t == [t[0]] + t[1..];
      NothingPrecedesHead(t, x, rest);
      PrependSorted(t[0], rest);
      [t[0]] + rest
    else
      NothingPrecedesInserted(t, x);
      PrependSorted(x, t);
      [x] + t
  }

  /** Putting in front an element that nothing has to precede keeps a sequence sorted. */
  lemma PrependSorted(x: AnswerGroup, t: seq<AnswerGroup>)
    requires Sorted(t)
    requires forall e :: e in t ==> !Precedes(e, x)
    ensures Sorted([x] + t)
  {
    var r := [x] + t;
    forall i, j | 0 <= i < j < |r| ensures !Precedes(r[j], r[i]) {
      assert r[j] == t[j - 1];
      if i > 0 {
        assert r[i] == t[i - 1];
      }
    }
  }

  /** After the head of a sorted sequence that precedes `x`, insertion keeps the head first. */
  lemma NothingPrecedesHead(t: seq<AnswerGroup>, x: AnswerGroup, rest: seq<AnswerGroup>)
    requires Sorted(t) && |t| > 0 && Precedes(t[0], x)
    requires multiset(rest) == multiset(t[1..]) + multiset{x}
    ensures forall e :: e in rest ==> !Precedes(e, t[0])
  {
    forall e | e in rest ensures !Precedes(e, t[0]) {
      assert e in multiset(rest);
      if e != x {
        assert e in multiset(t[1..]);
        var k :| 0 <= k < |t[1..]| && t[1..][k] == e;
        assert t[k + 1] == e;
      }
    }
  }

  /** When the head of a sorted sequence need not precede `x`, no element of it must. */
  lemma NothingPrecedesInserted(t: seq<AnswerGroup>, x: AnswerGroup)
    requires Sorted(t) && |t| > 0 && !Precedes(t[0], x)
    ensures forall e :: e in t ==> !Precedes(e, x)
  {
    forall e | e in t ensures !Precedes(e, x) {
      var k :| 0 <= k < |t| && t[k] == e;
      if k > 0 {
        assert !Precedes(t[k], t[0]);
      }
    }
  }

  /** Insertion sort: a stable sort under `Precedes`. */
  function SortGroups(s: seq<AnswerGroup>): (r: seq<AnswerGroup>)
    ensures multiset(r) == multiset(s)
    ensures Sorted(r)
  {
    if |s| == 0 then []
    else
      assert s == [s[0]] + s[1..];
      InsertGroup(s[0], SortGroups(s[1..]))
  }

  /** Group, score, then order the groups, given the entries read off the answers. */
  function GroupAnswersOf(es: seq<Entry>): seq<AnswerGroup>
  {
    SortGroups(Score(Collect(es)))
  }

  /** `groupAnswers`. */
  function GroupAnswers(answers: seq<Records.Answer>): seq<AnswerGroup>
  {
    GroupAnswersOf(Entries(answers))
  }

  // ---------------------------------------------------------------------------
  // Reference definitions: what each group should hold, read off the answers
  // ---------------------------------------------------------------------------

  /** Index of the first answer whose key is `key`; `|answers|` when there is none. */
  function FirstIndex(answers: seq<Entry>, key: string): (r: nat)
    ensures r <= |answers|
    ensures forall j :: 0 <= j < r ==> answers[j].key != key
    ensures r < |answers| ==> answers[r].key == key
  {
    if |answers| == 0 then 0
    else if answers[0].key == key then 0
    else
      var r := FirstIndex(answers[1..], key);
      assert forall j :: 1 <= j <= |answers| - 1 ==> answers[j] == answers[1..][j - 1];
      1 + r
  }

  /** Names of the participants whose answer has key `key`, in input order. */
  function NamesFor(answers: seq<Entry>, key: string): seq<string>
  {
    if |answers| == 0 then []
    else
      var last := answers[|answers| - 1];
      NamesFor(answers[..|answers| - 1], key) + (if last.key == key then [last.name] else [])
  }

  /** Number of answers whose key is not blank. */
  function NonBlankCount(answers: seq<Entry>): nat
  {
    if |answers| == 0 then 0
    else NonBlankCount(answers[..|answers| - 1]) + (if answers[|answers| - 1].key != [] then 1 else 0)
  }

  /** The non-blank keys that occur among `answers`. */
  function AnswerKeys(answers: seq<Entry>): set<string>
  {
    set k | 0 <= k < |answers| && answers[k].key != [] :: answers[k].key
  }

  /** The keys of a sequence of groups. */
  function KeysOf(gs: seq<AnswerGroup>): set<string>
  {
    set i | 0 <= i < |gs| :: gs[i].normalised
  }

  /** Sum of the counts of a sequence of groups. */
  function SumCounts(gs: seq<AnswerGroup>): nat
  {
    if |gs| == 0 then 0 else gs[0].count + SumCounts(gs[1..])
  }

  /** No two groups share a key. */
  predicate DistinctKeys(gs: seq<AnswerGroup>) {
    forall i, j :: 0 <= i < j < |gs| ==> gs[i].normalised != gs[j].normalised
  }

  /**
   * `g` is the tally of its key over `answers`: the key occurs, the display is
   * the trimmed text of its first occurrence, and the participants are the
   * names on all answers with that key, in input order, one per count.
   */
  predicate Tallies(answers: seq<Entry>, g: AnswerGroup) {
    && g.normalised != []
    && FirstIndex(answers, g.normalised) < |answers|
    && g.display == answers[FirstIndex(answers, g.normalised)].text
    && g.participants == NamesFor(answers, g.normalised)
    && g.count == |g.participants|
  }

  /** Every group is the tally of its key over `answers`. */
  predicate AllTally(answers: seq<Entry>, gs: seq<AnswerGroup>) {
    forall i :: 0 <= i < |gs| ==> Tallies(answers, gs[i])
  }

  /** No group has been scored yet: each holds at least one answer and no points. */
  predicate Unscored(gs: seq<AnswerGroup>) {
    forall i :: 0 <= i < |gs| ==> gs[i].count >= 1 && !gs[i].isWinner && gs[i].points == 0
  }

  /** The groups appear in the order their keys first occur in `answers`. */
  predicate FirstSeenOrder(answers: seq<Entry>, gs: seq<AnswerGroup>) {
    forall i, j :: 0 <= i < j < |gs| ==>
      FirstIndex(answers, gs[i].normalised) < FirstIndex(answers, gs[j].normalised)
  }

  /** What the grouping loop has built after reading `answers`. */
  predicate Grouped(answers: seq<Entry>, gs: seq<AnswerGroup>) {
    && DistinctKeys(gs)
    && KeysOf(gs) == AnswerKeys(answers)
    && AllTally(answers, gs)
    && Unscored(gs)
    && FirstSeenOrder(answers, gs)
    && SumCounts(gs) == NonBlankCount(answers)
  }

  // ---------------------------------------------------------------------------
  // Proof that the grouping loop builds the reference tallies
  // ---------------------------------------------------------------------------

  lemma FirstIndexSnoc(answers: seq<Entry>, x: Entry, key: string)
    ensures FirstIndex(answers + [x], key) ==
      if FirstIndex(answers, key) < |answers| then FirstIndex(answers, key)
      else if x.key == key then |answers| else |answers| + 1
  {
    var a' := answers + [x];
    var p := FirstIndex(answers, key);
    var q := FirstIndex(a', key);
    assert forall j :: 0 <= j < |answers| ==> a'[j] == answers[j];
    assert a'[|answers|] == x;
  }

  lemma {:induction false} NamesForAbsent(answers: seq<Entry>, key: string)
    requires forall j :: 0 <= j < |answers| ==> answers[j].key != key
    ensures NamesFor(answers, key) == []
  {
    if |answers| > 0 {
      NamesForAbsent(answers[..|answers| - 1], key);
    }
  }

  lemma AnswerKeysSnoc(answers: seq<Entry>, x: Entry)
    ensures AnswerKeys(answers + [x])
            == AnswerKeys(answers) + (if x.key != [] then {x.key} else {})
  {
    var a' := answers + [x];
    var extra: set<string> := if x.key != [] then {x.key} else {};
    forall key | key in AnswerKeys(a') ensures key in AnswerKeys(answers) + extra {
      var k :| 0 <= k < |a'| && a'[k].key != [] && a'[k].key == key;
      if k < |answers| {
        assert a'[k] == answers[k];
      }
    }
    forall key | key in AnswerKeys(answers) + extra ensures key in AnswerKeys(a') {
      if key in AnswerKeys(answers) {
        var k :| 0 <= k < |answers| && answers[k].key != [] && answers[k].key == key;
        assert a'[k] == answers[k];
      } else {
        assert a'[|answers|] == x;
      }
    }
  }

  lemma {:induction false} SumCountsSnoc(gs: seq<AnswerGroup>, g: AnswerGroup)
    ensures SumCounts(gs + [g]) == SumCounts(gs) + g.count
  {
    if |gs| > 0 {
      assert (gs + [g])[1..] == gs[1..] + [g];
      SumCountsSnoc(gs[1..], g);
    }
  }

  lemma {:induction false} SumCountsUpdate(gs: seq<AnswerGroup>, i: nat, g: AnswerGroup)
    requires i < |gs|
    ensures SumCounts(gs[i := g]) == SumCounts(gs) - gs[i].count + g.count
  {
    if i > 0 {
      assert gs[i := g][1..] == gs[1..][i - 1 := g];
      SumCountsUpdate(gs[1..], i - 1, g);
    }
  }

  /** A group whose key the new answer does not have is still its key's tally. */
  lemma TalliesKept(answers: seq<Entry>, x: Entry, g: AnswerGroup)
    requires Tallies(answers, g) && x.key != g.normalised
    ensures Tallies(answers + [x], g)
  {
    var a' := answers + [x];
    FirstIndexSnoc(answers, x, g.normalised);
    assert a'[..|answers|] == answers;
    assert a'[FirstIndex(answers, g.normalised)] == answers[FirstIndex(answers, g.normalised)];
  }

  /** The group the new answer joins is still its key's tally once grown by one name. */
  lemma TalliesGrown(answers: seq<Entry>, x: Entry, g: AnswerGroup)
    requires Tallies(answers, g) && x.key == g.normalised
    ensures Tallies(answers + [x], g.(count := g.count + 1, participants := g.participants + [x.name]))
  {
    var a' := answers + [x];
    FirstIndexSnoc(answers, x, g.normalised);
    assert a'[..|answers|] == answers;
    assert a'[FirstIndex(answers, g.normalised)] == answers[FirstIndex(answers, g.normalised)];
  }

  /** A key seen for the first time starts a group that is its tally. */
  lemma TalliesFresh(answers: seq<Entry>, x: Entry)
    requires x.key != [] && x.key !in AnswerKeys(answers)
    ensures FirstIndex(answers + [x], x.key) == |answers|
    ensures Tallies(answers + [x], AnswerGroup(x.key, x.text, 1, [x.name], false, 0))
  {
    var a' := answers + [x];
    var key := x.key;
    forall j | 0 <= j < |answers| ensures answers[j].key != key {
      assert answers[j].key != [] ==> answers[j].key in AnswerKeys(answers);
    }
    FirstIndexSnoc(answers, x, key);
    NamesForAbsent(answers, key);
    assert a'[..|answers|] == answers;
    assert a'[|answers|] == x;
  }

  /** One iteration of the grouping loop keeps `Grouped`. */
  lemma AbsorbGrouped(answers: seq<Entry>, gs: seq<AnswerGroup>, x: Entry)
    requires Grouped(answers, gs)
    ensures Grouped(answers + [x], Absorb(gs, x))
  {
    var key := x.key;
    if key == [] {
      AbsorbBlank(answers, gs, x);
    } else {
      match IndexOfKey(gs, key)
      case Some(i) => AbsorbKnown(answers, gs, x, i);
      case None => AbsorbFresh(answers, gs, x);
    }
  }

  /** Earlier keys keep their first index when an answer is appended. */
  lemma FirstIndicesKept(answers: seq<Entry>, gs: seq<AnswerGroup>, x: Entry)
    requires forall i :: 0 <= i < |gs| ==> FirstIndex(answers, gs[i].normalised) < |answers|
    ensures forall i :: 0 <= i < |gs| ==>
              FirstIndex(answers + [x], gs[i].normalised) == FirstIndex(answers, gs[i].normalised)
  {
    forall i | 0 <= i < |gs|
      ensures FirstIndex(answers + [x], gs[i].normalised) == FirstIndex(answers, gs[i].normalised)
    {
      FirstIndexSnoc(answers, x, gs[i].normalised);
    }
  }

  /** A blank answer changes no group, and every group stays its key's tally. */
  lemma AbsorbBlank(answers: seq<Entry>, gs: seq<AnswerGroup>, x: Entry)
    requires Grouped(answers, gs) && x.key == []
    ensures Grouped(answers + [x], Absorb(gs, x))
  {
    var a' := answers + [x];
    assert a'[..|answers|] == answers;
    AnswerKeysSnoc(answers, x);
    OrderKept(answers, gs, x);
    forall i | 0 <= i < |gs| ensures Tallies(a', gs[i]) {
      TalliesKept(answers, x, gs[i]);
    }
  }

  /** Appending an answer keeps the order of the groups that already exist. */
  lemma OrderKept(answers: seq<Entry>, gs: seq<AnswerGroup>, x: Entry)
    requires AllTally(answers, gs) && FirstSeenOrder(answers, gs)
    ensures FirstSeenOrder(answers + [x], gs)
    ensures forall k :: 0 <= k < |gs| ==> FirstIndex(answers + [x], gs[k].normalised) < |answers|
  {
    FirstIndicesKept(answers, gs, x);
  }

  /** The number of non-blank answers grows by one with a non-blank answer. */
  lemma NonBlankSnoc(answers: seq<Entry>, x: Entry)
    ensures NonBlankCount(answers + [x]) == NonBlankCount(answers) + (if x.key != [] then 1 else 0)
  {
    assert (answers + [x])[..|answers|] == answers;
  }

  /** An answer whose key has a group joins that group, which stays its key's tally. */
  lemma AbsorbKnown(answers: seq<Entry>, gs: seq<AnswerGroup>, x: Entry, i: nat)
    requires Grouped(answers, gs) && x.key != []
    requires IndexOfKey(gs, x.key) == Some(i)
    ensures Grouped(answers + [x], Absorb(gs, x))
  {
    var a' := answers + [x];
    var g' := gs[i].(count := gs[i].count + 1, participants := gs[i].participants + [x.name]);
    var r := gs[i := g'];
    AbsorbKnownShape(gs, x, i);
    KnownKeys(answers, gs, x, i, r);
    KnownTallies(answers, gs, x, i, r);
    KnownOrder(answers, gs, x, r);
    NonBlankSnoc(answers, x);
    SumCountsUpdate(gs, i, g');
  }

  lemma KnownKeys(answers: seq<Entry>, gs: seq<AnswerGroup>, x: Entry, i: nat, r: seq<AnswerGroup>)
    requires DistinctKeys(gs) && KeysOf(gs) == AnswerKeys(answers)
    requires i < |gs| && gs[i].normalised == x.key && x.key != []
    requires |r| == |gs| && forall k :: 0 <= k < |r| ==> r[k].normalised == gs[k].normalised
    requires r == gs[i := r[i]]
    ensures DistinctKeys(r) && KeysOf(r) == AnswerKeys(answers + [x])
  {
    KeysOfUpdate(gs, i, r[i]);
    KeysExtended(answers, x, KeysOf(gs), KeysOf(r));
  }

  lemma KnownTallies(answers: seq<Entry>, gs: seq<AnswerGroup>, x: Entry, i: nat, r: seq<AnswerGroup>)
    requires AllTally(answers, gs) && Unscored(gs) && DistinctKeys(gs)
    requires i < |gs| && gs[i].normalised == x.key
    requires r == gs[i := gs[i].(count := gs[i].count + 1, participants := gs[i].participants + [x.name])]
    ensures AllTally(answers + [x], r) && Unscored(r)
  {
    forall k | 0 <= k < |r| ensures Tallies(answers + [x], r[k]) {
      if k == i {
        TalliesGrown(answers, x, gs[i]);
      } else {
        TalliesKept(answers, x, gs[k]);
      }
    }
  }

  lemma KnownOrder(answers: seq<Entry>, gs: seq<AnswerGroup>, x: Entry, r: seq<AnswerGroup>)
    requires AllTally(answers, gs) && FirstSeenOrder(answers, gs)
    requires |r| == |gs| && forall k :: 0 <= k < |r| ==> r[k].normalised == gs[k].normalised
    ensures FirstSeenOrder(answers + [x], r)
  {
    OrderKept(answers, gs, x);
  }

  lemma KeysOfUpdate(gs: seq<AnswerGroup>, i: nat, g: AnswerGroup)
    requires i < |gs| && g.normalised == gs[i].normalised
    ensures KeysOf(gs[i := g]) == KeysOf(gs)
  {
    var r := gs[i := g];
    forall key | key in KeysOf(r) ensures key in KeysOf(gs) {
      var k :| 0 <= k < |r| && r[k].normalised == key;
      assert gs[k].normalised == key;
    }
    forall key | key in KeysOf(gs) ensures key in KeysOf(r) {
      var k :| 0 <= k < |gs| && gs[k].normalised == key;
      assert r[k].normalised == key;
    }
  }

  lemma KeysOfSnoc(gs: seq<AnswerGroup>, g: AnswerGroup)
    ensures KeysOf(gs + [g]) == KeysOf(gs) + {g.normalised}
  {
    var r := gs + [g];
    forall key | key in KeysOf(r) ensures key in KeysOf(gs) + {g.normalised} {
      var k :| 0 <= k < |r| && r[k].normalised == key;
      if k < |gs| {
        assert gs[k].normalised == key;
      }
    }
    forall key | key in KeysOf(gs) + {g.normalised} ensures key in KeysOf(r) {
      if key in KeysOf(gs) {
        var k :| 0 <= k < |gs| && gs[k].normalised == key;
        assert r[k].normalised == key;
      } else {
        assert r[|gs|].normalised == key;
      }
    }
  }

  /** The group keys keep matching the answer keys when the new answer's key is added. */
  lemma KeysExtended(answers: seq<Entry>, x: Entry, before: set<string>, after: set<string>)
    requires x.key != [] && before == AnswerKeys(answers) && after == before + {x.key}
    ensures after == AnswerKeys(answers + [x])
  {
    AnswerKeysSnoc(answers, x);
  }

  lemma AbsorbKnownShape(gs: seq<AnswerGroup>, x: Entry, i: nat)
    requires x.key != [] && IndexOfKey(gs, x.key) == Some(i)
    ensures Absorb(gs, x)
            == gs[i := gs[i].(count := gs[i].count + 1, participants := gs[i].participants + [x.name])]
  {
  }

  /** An answer with a new key opens a group at the end, which is that key's tally. */
  lemma AbsorbFresh(answers: seq<Entry>, gs: seq<AnswerGroup>, x: Entry)
    requires Grouped(answers, gs) && x.key != []
    requires IndexOfKey(gs, x.key) == None
    ensures Grouped(answers + [x], Absorb(gs, x))
  {
    var g := AnswerGroup(x.key, x.text, 1, [x.name], false, 0);
    var r := gs + [g];
    assert Absorb(gs, x) == r;
    FreshKeys(answers, gs, x, r);
    FreshTallies(answers, gs, x, r);
    FreshOrder(answers, gs, x, r);
    NonBlankSnoc(answers, x);
    SumCountsSnoc(gs, g);
  }

  lemma FreshKeys(answers: seq<Entry>, gs: seq<AnswerGroup>, x: Entry, r: seq<AnswerGroup>)
    requires DistinctKeys(gs) && KeysOf(gs) == AnswerKeys(answers)
    requires x.key != [] && forall k :: 0 <= k < |gs| ==> gs[k].normalised != x.key
    requires r == gs + [AnswerGroup(x.key, x.text, 1, [x.name], false, 0)]
    ensures DistinctKeys(r) && KeysOf(r) == AnswerKeys(answers + [x])
  {
    KeysOfSnoc(gs, r[|gs|]);
    KeysExtended(answers, x, KeysOf(gs), KeysOf(r));
  }

  lemma FreshTallies(answers: seq<Entry>, gs: seq<AnswerGroup>, x: Entry, r: seq<AnswerGroup>)
    requires AllTally(answers, gs) && Unscored(gs) && KeysOf(gs) == AnswerKeys(answers)
    requires x.key != [] && forall k :: 0 <= k < |gs| ==> gs[k].normalised != x.key
    requires r == gs + [AnswerGroup(x.key, x.text, 1, [x.name], false, 0)]
    ensures AllTally(answers + [x], r) && Unscored(r)
  {
    assert x.key !in KeysOf(gs);
    TalliesFresh(answers, x);
    forall k | 0 <= k < |gs| ensures Tallies(answers + [x], r[k]) {
      assert r[k] == gs[k];
      TalliesKept(answers, x, gs[k]);
    }
  }

  lemma FreshOrder(answers: seq<Entry>, gs: seq<AnswerGroup>, x: Entry, r: seq<AnswerGroup>)
    requires AllTally(answers, gs) && FirstSeenOrder(answers, gs) && KeysOf(gs) == AnswerKeys(answers)
    requires x.key != [] && forall k :: 0 <= k < |gs| ==> gs[k].normalised != x.key
    requires r == gs + [AnswerGroup(x.key, x.text, 1, [x.name], false, 0)]
    ensures FirstSeenOrder(answers + [x], r)
  {
    assert x.key !in KeysOf(gs);
    TalliesFresh(answers, x);
    OrderKept(answers, gs, x);
    assert forall k :: 0 <= k < |gs| ==> r[k] == gs[k];
  }

  /** The grouping loop builds exactly the reference tallies, in first-seen order. */
  lemma {:induction false} CollectGrouped(answers: seq<Entry>)
    ensures Grouped(answers, Collect(answers))
  {
    if |answers| > 0 {
      var init := answers[..|answers| - 1];
      CollectGrouped(init);
      assert answers == init + [answers[|answers| - 1]];
      AbsorbGrouped(init, Collect(init), answers[|answers| - 1]);
    }
  }

  // ---------------------------------------------------------------------------
  // Stability of the sort
  // ---------------------------------------------------------------------------

  /** `f` strictly increases along `s`. */
  predicate Increasing(s: seq<AnswerGroup>, f: AnswerGroup -> int) {
    forall i, j :: 0 <= i < j < |s| ==> f(s[i]) < f(s[j])
  }

  /** `f` strictly increases along `s` among elements that tie. */
  predicate TiesIncreasing(s: seq<AnswerGroup>, f: AnswerGroup -> int) {
    forall i, j :: 0 <= i < j < |s| && Tie(s[i], s[j]) ==> f(s[i]) < f(s[j])
  }

  /** Putting in front a group that comes first in `f` among the later groups it ties with keeps ties increasing. */
  lemma PrependTiesIncreasing(a: AnswerGroup, rest: seq<AnswerGroup>, f: AnswerGroup -> int)
    requires TiesIncreasing(rest, f)
    requires forall e :: e in rest && Tie(a, e) ==> f(a) < f(e)
    ensures TiesIncreasing([a] + rest, f)
  {
    var r := [a] + rest;
    forall i, j | 0 <= i < j < |r| && Tie(r[i], r[j]) ensures f(r[i]) < f(r[j]) {
      assert r[j] == rest[j - 1];
      if i > 0 {
        assert r[i] == rest[i - 1];
      }
    }
  }

  /** Inserting a group that comes first in `f` keeps the ties increasing. */
  lemma {:induction false} InsertGroupStable(x: AnswerGroup, t: seq<AnswerGroup>, f: AnswerGroup -> int)
    requires Sorted(t) && TiesIncreasing(t, f)
    requires forall e :: e in t ==> f(x) < f(e)
    ensures TiesIncreasing(InsertGroup(x, t), f)
  {
    if |t| > 0 {
      if Precedes(t[0], x) {
        var rest := InsertGroup(x, t[1..]);
        InsertGroupStable(x, t[1..], f);
        forall e | e in rest && Tie(t[0], e) ensures f(t[0]) < f(e) {
          assert e in multiset(rest);
          if e != x {
            assert e in multiset(t[1..]);
            var k :| 0 <= k < |t[1..]| && t[1..][k] == e;
            assert t[k + 1] == e;
          }
        }
        PrependTiesIncreasing(t[0], rest, f);
      } else {
        PrependTiesIncreasing(x, t, f);
      }
    }
  }

  /** The sort is stable: tied groups keep the relative order they had in the input. */
  lemma {:induction false} SortGroupsStable(s: seq<AnswerGroup>, f: AnswerGroup -> int)
    requires Increasing(s, f)
    ensures TiesIncreasing(SortGroups(s), f)
  {
    if |s| > 0 {
      var t := SortGroups(s[1..]);
      SortGroupsStable(s[1..], f);
      forall e | e in t ensures f(s[0]) < f(e) {
        assert e in multiset(s[1..]);
        var k :| 0 <= k < |s[1..]| && s[1..][k] == e;
        assert s[k + 1] == e;
      }
      InsertGroupStable(s[0], t, f);
    }
  }

  // ---------------------------------------------------------------------------
  // What the sort and the scoring keep
  // ---------------------------------------------------------------------------

  /** Inserting a group adds its count to the sum of the counts. */
  lemma {:induction false} InsertGroupSum(x: AnswerGroup, t: seq<AnswerGroup>)
    requires Sorted(t)
    ensures SumCounts(InsertGroup(x, t)) == x.count + SumCounts(t)
  {
    if |t| > 0 && Precedes(t[0], x) {
      var rest := InsertGroup(x, t[1..]);
      InsertGroupSum(x, t[1..]);
      assert InsertGroup(x, t) == [t[0]] + rest;
      assert ([t[0]] + rest)[1..] == rest;
    } else if |t| > 0 {
      assert ([x] + t)[1..] == t;
    }
  }

  /** Inserting a group whose key is new keeps the keys distinct. */
  lemma {:induction false} InsertGroupDistinct(x: AnswerGroup, t: seq<AnswerGroup>)
    requires Sorted(t) && DistinctKeys(t)
    requires forall e :: e in t ==> e.normalised != x.normalised
    ensures DistinctKeys(InsertGroup(x, t))
  {
    if |t| > 0 && Precedes(t[0], x) {
      var rest := InsertGroup(x, t[1..]);
      assert DistinctKeys(t[1..]);
      InsertGroupDistinct(x, t[1..]);
      assert InsertGroup(x, t) == [t[0]] + rest;
      forall e | e in rest ensures e.normalised != t[0].normalised {
        assert e in multiset(rest);
        if e != x {
          assert e in multiset(t[1..]);
          var k :| 0 <= k < |t[1..]| && t[1..][k] == e;
          assert t[k + 1] == e;
        }
      }
      DistinctPrepend(t[0], rest);
    } else if |t| > 0 {
      DistinctPrepend(x, t);
    }
  }

  /** A group whose key no later group has keeps the keys distinct when put in front. */
  lemma DistinctPrepend(x: AnswerGroup, t: seq<AnswerGroup>)
    requires DistinctKeys(t) && forall e :: e in t ==> e.normalised != x.normalised
    ensures DistinctKeys([x] + t)
  {
    var r := [x] + t;
    forall i, j | 0 <= i < j < |r| ensures r[i].normalised != r[j].normalised {
      assert r[j] == t[j - 1];
      if i > 0 {
        assert r[i] == t[i - 1];
      }
    }
  }

  /** The sort keeps the sum of the counts. */
  lemma {:induction false} SortGroupsSum(s: seq<AnswerGroup>)
    ensures SumCounts(SortGroups(s)) == SumCounts(s)
  {
    if |s| > 0 {
      SortGroupsSum(s[1..]);
      InsertGroupSum(s[0], SortGroups(s[1..]));
    }
  }

  /** The sort keeps the keys distinct. */
  lemma {:induction false} SortGroupsDistinct(s: seq<AnswerGroup>)
    requires DistinctKeys(s)
    ensures DistinctKeys(SortGroups(s))
  {
    if |s| > 0 {
      var t := SortGroups(s[1..]);
      assert DistinctKeys(s[1..]);
      SortGroupsDistinct(s[1..]);
      forall e | e in t ensures e.normalised != s[0].normalised {
        assert e in multiset(s[1..]);
        var k :| 0 <= k < |s[1..]| && s[1..][k] == e;
        assert s[k + 1] == e;
      }
      InsertGroupDistinct(s[0], t);
    }
  }

  /** The sort keeps the sum of the counts and the distinctness of the keys. */
  lemma SortGroupsKeeps(s: seq<AnswerGroup>)
    ensures SumCounts(SortGroups(s)) == SumCounts(s)
    ensures DistinctKeys(s) ==> DistinctKeys(SortGroups(s))
  {
    SortGroupsSum(s);
    if DistinctKeys(s) {
      SortGroupsDistinct(s);
    }
  }

  /** Two sequences with the same counts, position by position, have the same sum. */
  lemma {:induction false} SumCountsSameCounts(a: seq<AnswerGroup>, b: seq<AnswerGroup>)
    requires |a| == |b| && forall i :: 0 <= i < |a| ==> a[i].count == b[i].count
    ensures SumCounts(a) == SumCounts(b)
  {
    if |a| > 0 {
      SumCountsSameCounts(a[1..], b[1..]);
    }
  }

  /** Every output group is a scored group of the grouping loop, found by position. */
  lemma OutputIsScored(es: seq<Entry>, g: AnswerGroup)
    requires g in GroupAnswersOf(es)
    ensures exists k :: 0 <= k < |Collect(es)| && g == Mark(Collect(es)[k], MaxCount(Collect(es)))
  {
    var s := Score(Collect(es));
    assert g in multiset(SortGroups(s));
    assert g in multiset(s);
    var k :| 0 <= k < |s| && s[k] == g;
  }

  // ---------------------------------------------------------------------------
  // Properties of groupAnswers
  // ---------------------------------------------------------------------------

  /** What the grouping loop's invariant says about the sorted, scored output. */
  lemma {:induction false} OutputTallies(es: seq<Entry>)
    ensures var r := GroupAnswersOf(es);
            && DistinctKeys(r)
            && (forall g :: g in r ==> Tallies(es, g) && g.count >= 1)
            && SumCounts(r) == NonBlankCount(es)
  {
    var c := Collect(es);
    var s := Score(c);
    CollectGrouped(es);
    assert DistinctKeys(s);
    SortGroupsKeeps(s);
    SumCountsSameCounts(s, c);
    forall g | g in GroupAnswersOf(es) ensures Tallies(es, g) && g.count >= 1 {
      OutputIsScored(es, g);
    }
  }

  /** The keys of the output are the keys the grouping loop collected. */
  lemma OutputKeys(es: seq<Entry>)
    ensures KeysOf(GroupAnswersOf(es)) == KeysOf(Collect(es))
  {
    var c := Collect(es);
    var s := Score(c);
    var r := SortGroups(s);
    forall key | key in KeysOf(r) ensures key in KeysOf(c) {
      var i :| 0 <= i < |r| && r[i].normalised == key;
      OutputIsScored(es, r[i]);
    }
    forall key | key in KeysOf(c) ensures key in KeysOf(r) {
      var k :| 0 <= k < |c| && c[k].normalised == key;
      assert s[k] in multiset(r);
      var i :| 0 <= i < |r| && r[i] == s[k];
    }
  }

  /** Every output group is bounded by the largest collected count, and wins exactly when it reaches it. */
  lemma OutputMarks(es: seq<Entry>, g: AnswerGroup)
    requires g in GroupAnswersOf(es)
    ensures 1 <= g.count <= MaxCount(Collect(es))
    ensures g.isWinner <==> g.count == MaxCount(Collect(es))
    ensures g.points == if g.isWinner then WinnerPoints else 0
  {
    OutputIsScored(es, g);
    CollectGrouped(es);
  }

  /** A group of the largest count appears in the output when any group does. */
  lemma OutputHasMax(es: seq<Entry>)
    requires |GroupAnswersOf(es)| > 0
    ensures exists p :: 0 <= p < |GroupAnswersOf(es)| && GroupAnswersOf(es)[p].count == MaxCount(Collect(es))
  {
    var c := Collect(es);
    var s := Score(c);
    var r := SortGroups(s);
    assert |c| > 0;
    var w :| 0 <= w < |c| && c[w].count == MaxCount(c);
    assert s[w] in multiset(r);
    var p :| 0 <= p < |r| && r[p] == s[w];
  }

  /**
   * The groups are exactly the tallies of the non-blank keys: one group per
   * key, each holding the trimmed text of the key's first answer, the names
   * of all answers with that key in input order, and as many as there are
   * names; together they count every non-blank answer once.
   */
  lemma GroupsAreTallies(answers: seq<Records.Answer>)
    ensures var r := GroupAnswers(answers);
            && DistinctKeys(r)
            && KeysOf(r) == AnswerKeys(Entries(answers))
            && (forall g :: g in r ==> Tallies(Entries(answers), g))
            && SumCounts(r) == NonBlankCount(Entries(answers))
  {
    var es := Entries(answers);
    OutputTallies(es);
    OutputKeys(es);
    CollectGrouped(es);
  }

  /** The winners are exactly the groups with the largest count, and only they score points. */
  lemma WinnersHaveMaxCount(answers: seq<Records.Answer>)
    ensures var r := GroupAnswers(answers);
            && (forall g :: g in r ==> (g.isWinner <==> forall h :: h in r ==> h.count <= g.count))
            && (forall g :: g in r ==> g.points == if g.isWinner then WinnerPoints else 0)
            && (|r| > 0 ==> r[0].isWinner)
  {
    OutputWinners(Entries(answers));
  }

  lemma OutputWinners(es: seq<Entry>)
    ensures var r := GroupAnswersOf(es);
            && (forall g :: g in r ==> (g.isWinner <==> forall h :: h in r ==> h.count <= g.count))
            && (forall g :: g in r ==> g.points == if g.isWinner then WinnerPoints else 0)
            && (|r| > 0 ==> r[0].isWinner)
  {
    var r := GroupAnswersOf(es);
    var m := MaxCount(Collect(es));
    forall g | g in r ensures g.count <= m && (g.isWinner <==> g.count == m) && g.points == if g.isWinner then WinnerPoints else 0 {
      OutputMarks(es, g);
    }
    if |r| > 0 {
      OutputHasMax(es);
      var p :| 0 <= p < |r| && r[p].count == m;
      assert r[p] in r;
      if p > 0 {
        assert !Precedes(r[p], r[0]);
      }
      forall g | g in r && (forall h :: h in r ==> h.count <= g.count) ensures g.isWinner {
        assert r[p] in r;
      }
    }
  }

  /**
   * The order of the result: winners before every other group, counts never
   * increasing, and groups of equal count in the order their keys first
   * appear among the answers.
   */
  lemma GroupsOrdered(answers: seq<Records.Answer>)
    ensures var r := GroupAnswers(answers);
            && (forall i, j :: 0 <= i < j < |r| ==> r[i].isWinner || !r[j].isWinner)
            && (forall i, j :: 0 <= i < j < |r| ==> r[i].count >= r[j].count)
            && (forall i, j :: 0 <= i < j < |r| && r[i].count == r[j].count ==>
                  FirstIndex(Entries(answers), r[i].normalised) < FirstIndex(Entries(answers), r[j].normalised))
  {
    OutputOrdered(Entries(answers));
  }

  lemma OutputOrdered(es: seq<Entry>)
    ensures var r := GroupAnswersOf(es);
            && (forall i, j :: 0 <= i < j < |r| ==> r[i].isWinner || !r[j].isWinner)
            && (forall i, j :: 0 <= i < j < |r| ==> r[i].count >= r[j].count)
            && (forall i, j :: 0 <= i < j < |r| && r[i].count == r[j].count ==>
                  FirstIndex(es, r[i].normalised) < FirstIndex(es, r[j].normalised))
  {
    var r := GroupAnswersOf(es);
    OutputWinners(es);
    StableOnFirstIndex(es);
    forall i, j | 0 <= i < j < |r| ensures r[i].count >= r[j].count {
      assert !Precedes(r[j], r[i]);
      if r[i].isWinner != r[j].isWinner {
        assert r[j] in r;
      }
    }
    forall i, j | 0 <= i < j < |r| && r[i].count == r[j].count
      ensures FirstIndex(es, r[i].normalised) < FirstIndex(es, r[j].normalised)
    {
      assert r[i] in r && r[j] in r;
      assert Tie(r[i], r[j]);
    }
  }

  /** Tied output groups are in the order their keys first occur. */
  lemma StableOnFirstIndex(es: seq<Entry>)
    ensures var r := GroupAnswersOf(es);
            forall i, j :: 0 <= i < j < |r| && Tie(r[i], r[j]) ==>
              FirstIndex(es, r[i].normalised) < FirstIndex(es, r[j].normalised)
  {
    var s := Score(Collect(es));
    CollectGrouped(es);
    var f := (g: AnswerGroup) => FirstIndex(es, g.normalised) as int;
    assert Increasing(s, f);
    SortGroupsStable(s, f);
  }

  /** No group comes from a blank answer: the result is empty exactly when every answer is blank. */
  lemma BlankAnswersNeverGrouped(answers: seq<Records.Answer>)
    ensures GroupAnswers(answers) == [] <==> forall j :: 0 <= j < |answers| ==> AllSpace(answers[j].answer)
  {
    var es := Entries(answers);
    var r := GroupAnswers(answers);
    GroupsAreTallies(answers);
    forall j | 0 <= j < |answers| ensures es[j].key == [] <==> AllSpace(answers[j].answer) {
      KeyBlankIff(answers[j].answer);
    }
    forall j | 0 <= j < |answers| ensures es[j].key != [] ==> es[j].key in KeysOf(r) {
      var e := es[j];
      assert e.key != [] ==> e.key in AnswerKeys(es);
    }
    if r != [] {
      assert r[0].normalised in KeysOf(r);
    }
  }

  /**
   * Each group's display text is a trimmed, non-blank answer, and its key is
   * that text lower-cased.
   */
  lemma DisplayMatchesKey(answers: seq<Records.Answer>)
    ensures forall g :: g in GroupAnswers(answers) ==>
              && g.display != [] && Trim(g.display) == g.display
              && g.normalised == ToLower(g.display)
  {
    var es := Entries(answers);
    GroupsAreTallies(answers);
    forall g | g in GroupAnswers(answers)
      ensures g.display != [] && Trim(g.display) == g.display && g.normalised == ToLower(g.display)
    {
      var j := FirstIndex(es, g.normalised);
      var s := answers[j].answer;
      assert g.display == Trim(s) && g.normalised == Key(s);
      TrimIdempotent(s);
      ToLowerSpec(Trim(s));
    }
  }

  // ---------------------------------------------------------------------------
  // What does not depend on arrival order
  // ---------------------------------------------------------------------------

  /** Number of answers whose key is `key`. */
  function KeyCount(answers: seq<Records.Answer>, key: string): nat
  {
    if |answers| == 0 then 0
    else KeyCount(answers[..|answers| - 1], key) + (if Key(answers[|answers| - 1].answer) == key then 1 else 0)
  }

  lemma {:induction false} KeyCountAppend(x: seq<Records.Answer>, y: seq<Records.Answer>, key: string)
    ensures KeyCount(x + y, key) == KeyCount(x, key) + KeyCount(y, key)
    decreases |y|
  {
    if |y| > 0 {
      assert (x + y)[..|x + y| - 1] == x + y[..|y| - 1];
      KeyCountAppend(x, y[..|y| - 1], key);
    } else {
      assert x + y == x;
    }
  }

  /** Taking the last answer out of `a`, and the same answer out of `b`, leaves equal multisets. */
  lemma RemoveLast(a: seq<Records.Answer>, b: seq<Records.Answer>, p: nat)
    requires multiset(a) == multiset(b) && |a| > 0 && p < |b| && b[p] == a[|a| - 1]
    ensures multiset(a[..|a| - 1]) == multiset(b[..p] + b[p + 1..])
  {
    var x := a[|a| - 1];
    assert a == a[..|a| - 1] + [x];
    assert b == b[..p] + [x] + b[p + 1..];
    assert multiset(b[..p] + b[p + 1..]) == multiset(b[..p]) + multiset(b[p + 1..]);
    assert multiset(b) - multiset{x} == multiset(b[..p]) + multiset(b[p + 1..]);
    assert multiset(a) - multiset{x} == multiset(a[..|a| - 1]);
  }

  /** Reordering the answers does not change how many of them have a key. */
  lemma {:induction false} KeyCountPermutation(a: seq<Records.Answer>, b: seq<Records.Answer>, key: string)
    requires multiset(a) == multiset(b)
    ensures KeyCount(a, key) == KeyCount(b, key)
    decreases |a|
  {
    if |a| > 0 {
      var x := a[|a| - 1];
      var init := a[..|a| - 1];
      assert a == init + [x];
      assert x in multiset(b);
      var p :| 0 <= p < |b| && b[p] == x;
      var rest := b[..p] + b[p + 1..];
      assert b == b[..p] + ([b[p]] + b[p + 1..]);
      RemoveLast(a, b, p);
      KeyCountPermutation(init, rest, key);
      KeyCountAppend(b[..p], [b[p]] + b[p + 1..], key);
      KeyCountAppend([b[p]], b[p + 1..], key);
      KeyCountAppend(b[..p], b[p + 1..], key);
      assert KeyCount([b[p]], key) == if Key(x.answer) == key then 1 else 0 by {
        assert [b[p]][..0] == [];
      }
    } else {
      assert |b| == |multiset(b)|;
    }
  }

  /** A key's tally names one participant per answer with that key. */
  lemma {:induction false} NamesForCount(answers: seq<Records.Answer>, key: string)
    ensures |NamesFor(Entries(answers), key)| == KeyCount(answers, key)
  {
    if |answers| > 0 {
      var init := answers[..|answers| - 1];
      assert Entries(answers)[..|answers| - 1] == Entries(init);
      NamesForCount(init, key);
    }
  }

  /** Every key of `a` is a key of `b` when `b` holds the same answers. */
  lemma AnswerKeysIncluded(a: seq<Records.Answer>, b: seq<Records.Answer>)
    requires multiset(a) == multiset(b)
    ensures AnswerKeys(Entries(a)) <= AnswerKeys(Entries(b))
  {
    var ea := Entries(a);
    var eb := Entries(b);
    forall k | k in AnswerKeys(ea) ensures k in AnswerKeys(eb) {
      var j :| 0 <= j < |ea| && ea[j].key != [] && ea[j].key == k;
      assert a[j] in multiset(b);
      var p :| 0 <= p < |b| && b[p] == a[j];
      assert eb[p].key == k;
    }
  }

  /** Grouping the same answers in another order finds the same keys. */
  lemma SameKeys(a: seq<Records.Answer>, b: seq<Records.Answer>)
    requires multiset(a) == multiset(b)
    ensures KeysOf(GroupAnswers(a)) == KeysOf(GroupAnswers(b))
  {
    GroupsAreTallies(a);
    GroupsAreTallies(b);
    AnswerKeysIncluded(a, b);
    AnswerKeysIncluded(b, a);
  }

  /** Groups with the same key, grouped from the same answers in any two orders, have the same count. */
  lemma SameKeySameCount(a: seq<Records.Answer>, b: seq<Records.Answer>)
    requires multiset(a) == multiset(b)
    ensures forall g, h :: g in GroupAnswers(a) && h in GroupAnswers(b) && g.normalised == h.normalised ==>
              g.count == h.count
  {
    GroupsAreTallies(a);
    GroupsAreTallies(b);
    forall g, h | g in GroupAnswers(a) && h in GroupAnswers(b) && g.normalised == h.normalised
      ensures g.count == h.count
    {
      NamesForCount(a, g.normalised);
      NamesForCount(b, g.normalised);
      KeyCountPermutation(a, b, g.normalised);
    }
  }

  /** Every count among the groups of `b` is the count of some group of `a`, when both hold the same answers. */
  lemma CountsMatched(a: seq<Records.Answer>, b: seq<Records.Answer>)
    requires multiset(a) == multiset(b)
    ensures forall h :: h in GroupAnswers(b) ==> exists g :: g in GroupAnswers(a) && g.count == h.count
  {
    var ra := GroupAnswers(a);
    var rb := GroupAnswers(b);
    SameKeys(a, b);
    SameKeySameCount(a, b);
    forall h | h in rb ensures exists g :: g in ra && g.count == h.count {
      var q :| 0 <= q < |rb| && rb[q] == h;
      assert h.normalised in KeysOf(ra);
      var i :| 0 <= i < |ra| && ra[i].normalised == h.normalised;
      assert ra[i] in ra;
    }
  }

  /** A winning group still wins when the same answers arrive in another order. */
  lemma SameKeySameWinner(a: seq<Records.Answer>, b: seq<Records.Answer>)
    requires multiset(a) == multiset(b)
    ensures forall g, h :: g in GroupAnswers(a) && h in GroupAnswers(b) && g.normalised == h.normalised && g.isWinner ==>
              h.isWinner
  {
    var ra := GroupAnswers(a);
    var rb := GroupAnswers(b);
    CountsMatched(a, b);
    SameKeySameCount(a, b);
    WinnersHaveMaxCount(a);
    WinnersHaveMaxCount(b);
    forall g, h | g in ra && h in rb && g.normalised == h.normalised && g.isWinner
      ensures h.isWinner
    {
      forall h' | h' in rb ensures h'.count <= h.count {
        var g' :| g' in ra && g'.count == h'.count;
      }
    }
  }

  /**
   * The same answers in any order give the same keys, and for each key the
   * same count, winner flag and points; only the display text, the order of
   * the participants and the order of tied groups depend on arrival order.
   */
  lemma GroupingIgnoresOrder(a: seq<Records.Answer>, b: seq<Records.Answer>)
    requires multiset(a) == multiset(b)
    ensures KeysOf(GroupAnswers(a)) == KeysOf(GroupAnswers(b))
    ensures forall g, h :: g in GroupAnswers(a) && h in GroupAnswers(b) && g.normalised == h.normalised ==>
              g.count == h.count && g.isWinner == h.isWinner && g.points == h.points
  {
    SameKeys(a, b);
    WinnersHaveMaxCount(a);
    WinnersHaveMaxCount(b);
    SameKeySameCount(a, b);
    SameKeySameWinner(a, b);
    SameKeySameWinner(b, a);
  }
}

=== FILE: host.dfy ===
/**
 * The host's page (app/page.tsx) as a state machine: the host launches a
 * round with a question, answers stream in, the host reveals the grouped
 * results and finally resets for a new round. Once the regrouping effect
 * has run, the groups on screen are `groupAnswers` of the answers received.
 */
module Host {
  import opened Wrappers
  import opened Text
  import opened GameLogic
  import Records
  import Participant

  /** The page state. `groups` is derived from `answers` by the page's effect. */
  datatype Host = Host(
    question: string,
    inputQ: string,
    sessionId: Option<string>,
    status: Records.SessionStatus,
    answers: seq<Records.Answer>,
    groups: seq<AnswerGroup>,
    revealed: bool)

  /** What the page asks of the row store. */
  datatype Request =
    | CreateSession(question: string, status: Records.SessionStatus)   // insert a `sessions` row
    | MarkRevealed(id: string)                                         // set a session's status to revealed

  /** Things that happen to the page. */
  datatype Event =
    | InputChanged(text: string)                                       // the question input changed
    | StartPressed(created: Result<Option<Records.Session>, string>)    // Launch, with the store's reply to the insert
    | RevealPressed                                                    // the reveal button was pressed
    | ResetPressed                                                     // Cancel or New Round was pressed
    | AnswerInserted(row: Records.Answer)                              // insert notification on the answers table

  /** A state and the requests a transition sends. */
  datatype Transition = Transition(next: Host, requests: seq<Request>)

  /** The session id is a truthy string. */
  predicate HasSession(s: Host) {
    s.sessionId.Some? && s.sessionId.value != []
  }

  /** The page as first rendered. */
  const Initial: Host := Host("", "", None, Records.Waiting, [], [], false)

  /**
   * `handleStartSession`: with a non-blank question, ask the store for a new
   * active session; when it returns the row, start the round on it. A failed
   * insert leaves the page as it was.
   */
  function Start(s: Host, created: Result<Option<Records.Session>, string>): Transition
  {
    var q := Trim(s.inputQ);
    if q == [] then Transition(s, [])
    else if created.Failure? || created.value.None? then Transition(s, [CreateSession(q, Records.Active)])
    else
      Transition(s.(sessionId := Some(created.value.value.id), question := q, status := Records.Active,
                    answers := [], groups := [], revealed := false),
                 [CreateSession(q, Records.Active)])
  }

  /** `handleReveal`: show the results and tell the store, when there is a session. */
  function Reveal(s: Host): Transition
  {
    if !HasSession(s) then Transition(s, [])
    else Transition(s.(revealed := true, status := Records.Revealed), [MarkRevealed(s.sessionId.value)])
  }

  /** `handleReset`: back to the empty setup screen. */
  function Reset(s: Host): Host
  {
    Host("", "", None, Records.Waiting, [], [], false)
  }

  /** The insert handler followed by the effect that regroups the answers. */
  function Insert(s: Host, row: Records.Answer): Host
  {
    if !HasSession(s) || row.sessionId != s.sessionId.value then s
    else
      var answers := s.answers + [row];
      s.(answers := answers, groups := GroupAnswers(answers))
  }

  /** The question input and the Launch button are on screen. */
  predicate SetupShown(s: Host) {
    s.status == Records.Waiting
  }

  /** The reveal button is on screen. */
  predicate RevealShown(s: Host) {
    s.status == Records.Active
  }

  /** The reveal button is enabled. */
  predicate RevealEnabled(s: Host) {
    |s.answers| > 0
  }

  /** The Cancel / New Round button is on screen. */
  predicate ResetShown(s: Host) {
    s.status == Records.Active || s.status == Records.Revealed
  }

  /** One event, as the page handles it; a control that is not on screen or disabled does nothing. */
  function Step(s: Host, e: Event): Transition
  {
    match e
    case InputChanged(text) =>
      if SetupShown(s) then Transition(s.(inputQ := text), []) else Transition(s, [])
    case StartPressed(created) =>
      if SetupShown(s) then Start(s, created) else Transition(s, [])
    case RevealPressed =>
      if RevealShown(s) && RevealEnabled(s) then Reveal(s) else Transition(s, [])
    case ResetPressed =>
      if ResetShown(s) then Transition(Reset(s), []) else Transition(s, [])
    case AnswerInserted(row) =>
      Transition(Insert(s, row), [])
  }

  /**
   * The link participants join with: the page origin, the configured base
   * path (empty when unset) and `/join?s=` followed by the session id; no
   * link without a session.
   */
  function JoinUrl(s: Host, origin: string, basePath: Option<string>): Option<string>
  {
    if !HasSession(s) then None
    else Some(origin + (if basePath.Some? then basePath.value else "") + "/join?s=" + s.sessionId.value)
  }

  // ---------------------------------------------------------------------------
  // The invariant of the page
  // ---------------------------------------------------------------------------

  /**
   * What every reachable page state satisfies: the groups are those of the
   * answers; the page waits exactly when it has no session, in which case it
   * has no answers and no question; a round's question is trimmed and not
   * blank; `revealed` is set exactly in the revealed status; the page never
   * shows a finished session; and every answer belongs to the session.
   */
  predicate Wf(s: Host) {
    && s.groups == GroupAnswers(s.answers)
    && (s.status == Records.Waiting <==> s.sessionId.None?)
    && (s.status == Records.Waiting ==> s.answers == [] && s.question == [])
    && (s.status != Records.Waiting ==> s.question != [] && Trim(s.question) == s.question)
    && (s.revealed <==> s.status == Records.Revealed)
    && s.status != Records.Finished
    && (forall i :: 0 <= i < |s.answers| ==> s.answers[i].sessionId == s.sessionId.value)
  }

  /** No answers, no groups. */
  lemma GroupsOfNoAnswers()
    ensures GroupAnswers([]) == []
  {
    BlankAnswersNeverGrouped([]);
  }

  lemma InitialWf()
    ensures Wf(Initial)
  {
    GroupsOfNoAnswers();
  }

  /** Launching from the setup screen keeps the invariant. */
  lemma StartKeepsWf(s: Host, created: Result<Option<Records.Session>, string>)
    requires Wf(s) && SetupShown(s)
    ensures Wf(Start(s, created).next)
  {
    GroupsOfNoAnswers();
    if Trim(s.inputQ) != [] {
      TrimIdempotent(s.inputQ);
    }
  }

  /** Revealing keeps the invariant. */
  lemma RevealKeepsWf(s: Host)
    requires Wf(s)
    ensures Wf(Reveal(s).next)
  {
  }

  /** Resetting always lands in a state satisfying the invariant. */
  lemma ResetKeepsWf(s: Host)
    ensures Wf(Reset(s))
  {
    GroupsOfNoAnswers();
  }

  /** An insert notification keeps the invariant. */
  lemma InsertKeepsWf(s: Host, row: Records.Answer)
    requires Wf(s)
    ensures Wf(Insert(s, row))
  {
    var t := Insert(s, row);
    if HasSession(s) && row.sessionId == s.sessionId.value {
      assert forall i :: 0 <= i < |t.answers| ==> t.answers[i] == if i < |s.answers| then s.answers[i] else row;
    }
  }

  /** Every event keeps the invariant. */
  lemma StepKeepsWf(s: Host, e: Event)
    requires Wf(s)
    ensures Wf(Step(s, e).next)
  {
    match e
    case StartPressed(created) =>
      if SetupShown(s) {
        StartKeepsWf(s, created);
        assert Step(s, e).next == Start(s, created).next;
      } else {
        assert Step(s, e).next == s;
      }
    case RevealPressed =>
      RevealKeepsWf(s);
      assert Step(s, e).next == s || Step(s, e).next == Reveal(s).next;
    case ResetPressed =>
      ResetKeepsWf(s);
      assert Step(s, e).next == s || Step(s, e).next == Reset(s);
    case AnswerInserted(row) =>
      InsertKeepsWf(s, row);
      assert Step(s, e).next == Insert(s, row);
    case InputChanged(text) =>
      assert Step(s, e).next == s || Step(s, e).next == s.(inputQ := text);
  }

  /** The page after a sequence of events, and every request sent. */
  function Run(s: Host, events: seq<Event>): Transition
    decreases |events|
  {
    if |events| == 0 then Transition(s, [])
    else
      var t := Step(s, events[0]);
      var rest := Run(t.next, events[1..]);
      Transition(rest.next, t.requests + rest.requests)
  }

  /** Every state the page reaches from its first render satisfies the invariant. */
  lemma {:induction false} RunKeepsWf(s: Host, events: seq<Event>)
    requires Wf(s)
    ensures Wf(Run(s, events).next)
    decreases |events|
  {
    if |events| > 0 {
      StepKeepsWf(s, events[0]);
      RunKeepsWf(Step(s, events[0]).next, events[1..]);
    }
  }

  // ---------------------------------------------------------------------------
  // The handlers
  // ---------------------------------------------------------------------------

  /**
   * Launching: a blank question changes nothing and sends nothing; otherwise
   * one active session is requested for the trimmed question, a failed
   * request leaves the page as it was, and a created row starts a fresh,
   * unrevealed round on it.
   */
  lemma StartOutcome(s: Host, created: Result<Option<Records.Session>, string>)
    ensures var t := Start(s, created);
            && (AllSpace(s.inputQ) ==> t == Transition(s, []))
            && (!AllSpace(s.inputQ) ==> t.requests == [CreateSession(Trim(s.inputQ), Records.Active)])
            && (!AllSpace(s.inputQ) && (created.Failure? || created.value.None?) ==> t.next == s)
            && (!AllSpace(s.inputQ) && created.Success? && created.value.Some? ==>
                  && t.next.sessionId == Some(created.value.value.id)
                  && t.next.question == Trim(s.inputQ) && t.next.status == Records.Active
                  && t.next.answers == [] && t.next.groups == [] && !t.next.revealed
                  && t.next.inputQ == s.inputQ)
  {
    TrimSpec(s.inputQ);
  }

  /**
   * Revealing: without a session nothing happens; with one, the results are
   * shown, the store is told, and the answers and groups stay as they are.
   */
  lemma RevealOutcome(s: Host)
    ensures var t := Reveal(s);
            && (!HasSession(s) ==> t == Transition(s, []))
            && (HasSession(s) ==>
                  && t.next.revealed && t.next.status == Records.Revealed
                  && t.requests == [MarkRevealed(s.sessionId.value)]
                  && t.next.answers == s.answers && t.next.groups == s.groups
                  && t.next == s.(revealed := true, status := Records.Revealed))
  {
  }

  /** Resetting forgets the session and everything about the round. */
  lemma ResetOutcome(s: Host)
    ensures var r := Reset(s);
            && r.sessionId.None? && r.status == Records.Waiting
            && r.question == [] && r.inputQ == [] && r.answers == [] && r.groups == [] && !r.revealed
            && r == Initial
  {
  }

  /**
   * An insert notification for the current session appends exactly that row
   * after the answers already there and regroups; any other row is ignored.
   */
  lemma InsertOutcome(s: Host, row: Records.Answer)
    ensures var r := Insert(s, row);
            && (HasSession(s) && row.sessionId == s.sessionId.value ==>
                  && |r.answers| == |s.answers| + 1
                  && r.answers[..|s.answers|] == s.answers && r.answers[|s.answers|] == row
                  && r.groups == GroupAnswers(r.answers))
            && (!HasSession(s) || row.sessionId != s.sessionId.value ==> r == s)
            && r == s.(answers := r.answers, groups := r.groups)
  {
    if HasSession(s) && row.sessionId == s.sessionId.value {
      assert (s.answers + [row])[..|s.answers|] == s.answers;
    }
  }

  /** The reveal button does something only in an active round with answers, and there it reveals. */
  lemma RevealOnlyFromActiveWithAnswers(s: Host)
    requires Wf(s)
    ensures Step(s, RevealPressed).next != s ==> s.status == Records.Active && |s.answers| > 0
    ensures s.status == Records.Active && |s.answers| > 0 && HasSession(s) ==> Step(s, RevealPressed).next.revealed
  {
  }

  /**
   * Answers submitted through the participant page are never blank, so a
   * round that can be revealed always has groups, led by a winner.
   */
  lemma RevealedRoundHasWinner(s: Host)
    requires Wf(s) && |s.answers| > 0
    requires forall i :: 0 <= i < |s.answers| ==> !AllSpace(s.answers[i].answer)
    ensures |s.groups| > 0 && s.groups[0].isWinner
  {
    BlankAnswersNeverGrouped(s.answers);
    WinnersHaveMaxCount(s.answers);
  }

  // ---------------------------------------------------------------------------
  // The join link
  // ---------------------------------------------------------------------------

  /**
   * The join link exists exactly when there is a session, ends with
   * `/join?s=` and the session id, and starts with the origin.
   */
  lemma JoinUrlShape(s: Host, origin: string, basePath: Option<string>)
    ensures JoinUrl(s, origin, basePath).Some? <==> HasSession(s)
    ensures HasSession(s) ==>
              var url := JoinUrl(s, origin, basePath).value;
              var tail := "/join?s=" + s.sessionId.value;
              && |url| >= |origin| + |tail|
              && url[..|origin|] == origin
              && url[|url| - |tail|..] == tail
  {
    if HasSession(s) {
      var base := if basePath.Some? then basePath.value else "";
      var tail := "/join?s=" + s.sessionId.value;
      var url := JoinUrl(s, origin, basePath).value;
      assert url == origin + base + tail;
      assert url[..|origin|] == origin;
      assert url[|url| - |tail|..] == tail;
    }
  }

  /** A participant page opened with the link's `s` parameter loads exactly this session. */
  lemma JoinLinkLoadsSession(s: Host)
    requires HasSession(s)
    ensures Participant.Init(s.sessionId).requests == [Participant.FetchSession(s.sessionId.value)]
    ensures Participant.Init(s.sessionId).next.stage == Participant.Loading
  {
  }
}

=== FILE: participant.dfy ===
/**
 * The participant's page (app/join/page.tsx) as a state machine: the page
 * loads the session named in its URL, shows the answer form, submits one
 * answer and waits for the host to reveal the results. Each asynchronous
 * handler is split into the request it sends and the event that carries
 * the reply, so every transition is a pure function of (state, event)
 * that also returns the requests it issues.
 */
module Participant {
  import opened Wrappers
  import opened Text
  import Records

  /** The screens of the page. */
  datatype Stage = Loading | AnswerEntry | Waiting | Revealed | Error

  const NoSessionMessage: string := "No session ID in URL. Ask the host to share the correct link."
  const NotFoundMessage: string := "Session not found. Double-check the link."
  const SubmitErrorPrefix: string := "Could not submit your answer: "
  /** Every participant submits under this name. */
  const ParticipantName: string := "Anonymous"

  /**
   * The page state. `pending` counts the answer inserts sent and not yet
   * answered; the page itself keeps only the `submitting` flag.
   */
  datatype Join = Join(
    sessionId: Option<string>,
    stage: Stage,
    session: Option<Records.Session>,
    answer: string,
    submitting: bool,
    errorMsg: string,
    pending: nat)

  /** The fields of an `answers` row the page inserts; the store fills in the rest. */
  datatype NewAnswer = NewAnswer(sessionId: string, participantName: string, answer: string)

  /** What the page asks of the row store. */
  datatype Request = FetchSession(id: string) | InsertAnswer(row: NewAnswer)

  /** Things that happen to the page. */
  datatype Event =
    | Fetched(result: Result<Option<Records.Session>, string>)   // reply to FetchSession: row, no row, or error
    | SessionUpdated(row: Records.Session)                      // update notification on the sessions table
    | Typed(text: string)                                       // the answer input changed
    | SubmitClicked                                             // the submit button was pressed
    | EnterPressed                                              // Enter was pressed in the answer input
    | Submitted(error: Option<string>)                          // reply to InsertAnswer: success or an error message

  /** A state and the requests a transition sends. */
  datatype Transition = Transition(next: Join, requests: seq<Request>)

  /** The `s` query parameter is present and not empty (a truthy string). */
  predicate HasId(sessionId: Option<string>) {
    sessionId.Some? && sessionId.value != []
  }

  /** The page as first rendered from the `s` query parameter of its URL. */
  function Init(param: Option<string>): (t: Transition)
    ensures !HasId(param) ==> t.next.stage == Error && t.next.errorMsg == NoSessionMessage && t.requests == []
    ensures HasId(param) ==> t.next.stage == Loading && t.requests == [FetchSession(param.value)]
    ensures t.next.sessionId == param && t.next.session.None? && !t.next.submitting && t.next.pending == 0
  {
    if !HasId(param) then Transition(Join(param, Error, None, "", false, NoSessionMessage, 0), [])
    else Transition(Join(param, Loading, None, "", false, "", 0), [FetchSession(param.value)])
  }

  /** The answer input and the submit button are on screen. */
  predicate FormShown(s: Join) {
    s.stage == AnswerEntry && s.session.Some?
  }

  /** The submit button is enabled: there is something to submit and nothing is being submitted. */
  predicate ButtonEnabled(s: Join) {
    Trim(s.answer) != [] && !s.submitting
  }

  /** `handleSubmitAnswer`: insert the trimmed answer, unless it is blank or there is no session id. */
  function Submit(s: Join): (t: Transition)
  {
    if Trim(s.answer) == [] || !HasId(s.sessionId) then Transition(s, [])
    else
      Transition(s.(submitting := true, pending := s.pending + 1),
                 [InsertAnswer(NewAnswer(s.sessionId.value, ParticipantName, Trim(s.answer)))])
  }

  /** One event, as the page handles it. */
  function Step(s: Join, e: Event): Transition
  {
    match e
    case Fetched(result) =>
      if !HasId(s.sessionId) then Transition(s, [])
      else if result.Failure? || result.value.None? then
        Transition(s.(errorMsg := NotFoundMessage, stage := Error), [])
      else
        var row := result.value.value;
        Transition(s.(session := Some(row), stage := if row.status == Records.Revealed then Revealed else AnswerEntry), [])
    case SessionUpdated(row) =>
      if !HasId(s.sessionId) || row.id != s.sessionId.value then Transition(s, [])
      else Transition(s.(session := Some(row), stage := if row.status == Records.Revealed then Revealed else s.stage), [])
    case Typed(text) =>
      if FormShown(s) then Transition(s.(answer := text), []) else Transition(s, [])
    case SubmitClicked =>
      if FormShown(s) && ButtonEnabled(s) then Submit(s) else Transition(s, [])
    case EnterPressed =>
      if FormShown(s) then Submit(s) else Transition(s, [])
    case Submitted(error) =>
      if s.pending == 0 then Transition(s, [])
      else
        var done := s.(submitting := false, pending := s.pending - 1);
        if error.Some? then Transition(done.(errorMsg := SubmitErrorPrefix + error.value, stage := Error), [])
        else Transition(done.(stage := Waiting), [])
  }

  // ---------------------------------------------------------------------------
  // Loading and notifications
  // ---------------------------------------------------------------------------

  /**
   * The reply to the session fetch: an error or a missing row is the
   * not-found error; a row is kept and decides between the results screen
   * (status revealed) and the answer form (any other status).
   */
  lemma FetchOutcome(s: Join, result: Result<Option<Records.Session>, string>)
    requires HasId(s.sessionId)
    ensures var t := Step(s, Fetched(result));
            && t.requests == []
            && (result.Failure? || result.value.None? ==>
                  t.next.stage == Error && t.next.errorMsg == NotFoundMessage && t.next.session == s.session)
            && (result.Success? && result.value.Some? ==>
                  && t.next.session == result.value
                  && (t.next.stage == Revealed <==> result.value.value.status == Records.Revealed)
                  && (t.next.stage == Revealed || t.next.stage == AnswerEntry))
            && t.next.answer == s.answer && t.next.submitting == s.submitting
            && t.next.pending == s.pending && t.next.sessionId == s.sessionId
            && t.next == s.(session := t.next.session, stage := t.next.stage, errorMsg := t.next.errorMsg)
            && (result.Success? && result.value.Some? ==> t.next.errorMsg == s.errorMsg)
  {
  }

  /**
   * An update notification for the page's session replaces the cached row;
   * the stage moves to revealed when the row is revealed and stays put
   * otherwise.
   */
  lemma UpdateOutcome(s: Join, row: Records.Session)
    requires HasId(s.sessionId) && row.id == s.sessionId.value
    ensures var t := Step(s, SessionUpdated(row));
            && t.requests == []
            && t.next.session == Some(row)
            && (row.status == Records.Revealed ==> t.next.stage == Revealed)
            && (row.status != Records.Revealed ==> t.next.stage == s.stage)
            && t.next == s.(session := Some(row), stage := t.next.stage)
  {
  }

  /** A notification delivered twice leaves the page as delivering it once does. */
  lemma UpdateIdempotent(s: Join, row: Records.Session)
    ensures var once := Step(s, SessionUpdated(row)).next;
            Step(once, SessionUpdated(row)).next == once
  {
  }

  // ---------------------------------------------------------------------------
  // Submitting
  // ---------------------------------------------------------------------------

  /** Both submit gestures reach the submit handler only through their own checks. */
  lemma SubmitGesture(s: Join, e: Event)
    requires e == SubmitClicked || e == EnterPressed
    ensures FormShown(s) && (e == EnterPressed || ButtonEnabled(s)) ==> Step(s, e) == Submit(s)
    ensures !(FormShown(s) && (e == EnterPressed || ButtonEnabled(s))) ==> Step(s, e) == Transition(s, [])
  {
  }

  /** Submitting a blank answer, or without a session id, changes nothing and sends nothing. */
  lemma BlankSubmitIgnored(s: Join, e: Event)
    requires e == SubmitClicked || e == EnterPressed
    requires AllSpace(s.answer) || !HasId(s.sessionId)
    ensures Step(s, e) == Transition(s, [])
  {
    SubmitGesture(s, e);
    KeyBlankIff(s.answer);
    TrimSpec(s.answer);
    assert Trim(s.answer) == [] || !HasId(s.sessionId);
    assert Submit(s) == Transition(s, []);
  }

  /**
   * A submission that goes through sends exactly one insert: the page's
   * session id, the name "Anonymous" and the trimmed answer, which groups
   * under the same key as the text typed. The page is then submitting.
   */
  lemma SubmitSendsTrimmedRow(s: Join, e: Event)
    requires e == SubmitClicked || e == EnterPressed
    requires Step(s, e).requests != []
    ensures var t := Step(s, e);
            && HasId(s.sessionId) && FormShown(s)
            && t.requests == [InsertAnswer(NewAnswer(s.sessionId.value, ParticipantName, Trim(s.answer)))]
            && !AllSpace(Trim(s.answer))
            && Key(Trim(s.answer)) == Key(s.answer)
            && t.next == s.(submitting := true, pending := s.pending + 1)
  {
    SubmitGesture(s, e);
    assert FormShown(s);
    assert Step(s, e) == Submit(s);
    assert Trim(s.answer) != [] && HasId(s.sessionId);
    KeyOfTrim(s.answer);
    TrimSpec(Trim(s.answer));
  }

  /**
   * The reply to an insert: success leads to the waiting screen, an error to
   * the error screen with the store's message after a fixed prefix; either
   * way the page stops submitting.
   */
  lemma SubmitResult(s: Join, error: Option<string>)
    requires s.pending > 0
    ensures var t := Step(s, Submitted(error));
            && t.requests == [] && !t.next.submitting && t.next.pending == s.pending - 1
            && (error.None? ==> t.next.stage == Waiting)
            && (error.Some? ==> t.next.stage == Error && t.next.errorMsg == SubmitErrorPrefix + error.value)
            && t.next.session == s.session && t.next.answer == s.answer && t.next.sessionId == s.sessionId
            && t.next == s.(submitting := false, pending := s.pending - 1, stage := t.next.stage, errorMsg := t.next.errorMsg)
            && (error.None? ==> t.next.errorMsg == s.errorMsg)
  {
  }

  /**
   * A successful reply to an insert that arrives after the reveal
   * notification takes the page from the results screen back to waiting.
   */
  lemma LateReplyHidesReveal(s: Join, row: Records.Session)
    requires HasId(s.sessionId) && row.id == s.sessionId.value && row.status == Records.Revealed
    requires s.pending > 0
    ensures Step(s, SessionUpdated(row)).next.stage == Revealed
    ensures Step(Step(s, SessionUpdated(row)).next, Submitted(None)).next.stage == Waiting
  {
  }

  // ---------------------------------------------------------------------------
  // Enter while a submission is in flight
  // ---------------------------------------------------------------------------

  /** At most the one insert the `submitting` flag stands for is in flight. */
  predicate OneInsert(s: Join) {
    s.pending == if s.submitting then 1 else 0
  }

  /**
   * As written, pressing Enter twice before the first insert is answered
   * sends the same answer twice: the key handler calls the submit handler
   * directly, and only the button checks the `submitting` flag.
   */
  lemma DoubleEnterInsertsTwice(s: Join)
    requires FormShown(s) && HasId(s.sessionId) && !AllSpace(s.answer) && OneInsert(s) && !s.submitting
    ensures var first := Step(s, EnterPressed);
            var second := Step(first.next, EnterPressed);
            && first.requests == second.requests && |first.requests| == 1
            && second.next.pending == 2
            && !OneInsert(second.next)
  {
    KeyBlankIff(s.answer);
    TrimSpec(s.answer);
  }

  /**
   * The key handler with the check the button makes: while a submission is
   * in flight no event sends a request, and otherwise the page is unchanged.
   */
  function GuardedStep(s: Join, e: Event): (t: Transition)
    ensures s.submitting ==> t.requests == []
    ensures !s.submitting ==> t == Step(s, e)
  {
    if e == EnterPressed && s.submitting then Transition(s, []) else Step(s, e)
  }

  /** With the guard, every event keeps at most one insert in flight, the one `submitting` shows. */
  lemma GuardedStepKeepsOneInsert(s: Join, e: Event)
    requires OneInsert(s)
    ensures OneInsert(GuardedStep(s, e).next)
    ensures s.submitting ==> |GuardedStep(s, e).requests| == 0
  {
  }

  /** The page after a sequence of events, with the guarded key handler, and every request sent. */
  function Run(s: Join, events: seq<Event>): Transition
    decreases |events|
  {
    if |events| == 0 then Transition(s, [])
    else
      var t := GuardedStep(s, events[0]);
      var rest := Run(t.next, events[1..]);
      Transition(rest.next, t.requests + rest.requests)
  }

  /**
   * From the first render on, with the guarded key handler, the page never
   * has more than one insert in flight, whatever happens.
   */
  lemma {:induction false} RunKeepsOneInsert(s: Join, events: seq<Event>)
    requires OneInsert(s)
    ensures OneInsert(Run(s, events).next) && Run(s, events).next.pending <= 1
    decreases |events|
  {
    if |events| > 0 {
      GuardedStepKeepsOneInsert(s, events[0]);
      RunKeepsOneInsert(GuardedStep(s, events[0]).next, events[1..]);
    }
  }

  /** Every page starts with no insert in flight. */
  lemma InitOneInsert(param: Option<string>)
    ensures OneInsert(Init(param).next)
  {
  }
}

=== FILE: records.dfy ===
/**
 * The two row shapes of the remote store that the core reads and writes
 * (lib/supabase.ts). The store itself is not part of this model.
 */
module Records {

  /** Lifecycle status of a session row. */
  datatype SessionStatus = Waiting | Active | Revealed | Finished

  /** A row of the `sessions` table. `question` is the single-question field the core uses. */
  datatype Session = Session(
    id: string,
    question: string,
    questions: seq<string>,
    currentQuestionIndex: int,
    status: SessionStatus,
    createdAt: string)

  /** A row of the append-only `answers` table. */
  datatype Answer = Answer(
    id: string,
    sessionId: string,
    participantName: string,
    answer: string,
    questionIndex: int,
    submittedAt: string)
}

=== FILE: text.dfy ===
/**
 * The string operations the grouping key is built from: ECMAScript
 * `String.prototype.trim` and `String.prototype.toLowerCase`.
 */
module Text {

  /** A WhiteSpace or LineTerminator code point of ECMAScript: exactly what `trim` strips. */
  predicate IsSpace(c: char) {
    || c == '\t' || c == '\n' || c == '\U{000B}' || c == '\U{000C}' || c == '\r' || c == ' '
    || c == '\U{00A0}' || c == '\U{1680}' || ('\U{2000}' <= c <= '\U{200A}')
    || c == '\U{2028}' || c == '\U{2029}' || c == '\U{202F}' || c == '\U{205F}'
    || c == '\U{3000}' || c == '\U{FEFF}'
  }

  /** Every character of `s` is white space (vacuously true of the empty string). */
  predicate AllSpace(s: string) {
    forall i :: 0 <= i < |s| ==> IsSpace(s[i])
  }

  /** `s` without its leading white space. */
  function TrimStart(s: string): string
  {
    if |s| > 0 && IsSpace(s[0]) then TrimStart(s[1..]) else s
  }

  /** `s` without its trailing white space. */
  function TrimEnd(s: string): string
  {
    if |s| > 0 && IsSpace(s[|s| - 1]) then TrimEnd(s[..|s| - 1]) else s
  }

  /** `String.prototype.trim`: `s` without white space at either end. */
  function Trim(s: string): string
  {
    TrimEnd(TrimStart(s))
  }

  /** `String.prototype.toLowerCase`, on the ASCII letters. */
  function ToLower(s: string): string
  {
    if |s| == 0 then [] else [LowerChar(s[0])] + ToLower(s[1..])
  }

  /** ASCII upper-case letters map to lower case; every other character is kept. */
  function LowerChar(c: char): (d: char)
    ensures 'A' <= c <= 'Z' ==> 'a' <= d <= 'z' && d as int - c as int == 32
    ensures !('A' <= c <= 'Z') ==> d == c
  {
    if 'A' <= c <= 'Z' then (c as int + 32) as char else c
  }

  /** The grouping key of an answer: trimmed, then lower-cased. */
  function Key(s: string): string
  {
    ToLower(Trim(s))
  }

  /** `r` is the slice of `s` at offset `i`, and everything of `s` around it is white space. */
  predicate CutOf(s: string, i: int, r: string) {
    0 <= i && i + |r| <= |s| && r == s[i..i + |r|] && AllSpace(s[..i]) && AllSpace(s[i + |r|..])
  }

  /** `TrimStart` keeps a suffix, cuts only white space, and leaves no leading white space. */
  lemma {:induction false} TrimStartCut(s: string)
    ensures var r := TrimStart(s);
            && |r| <= |s| && r == s[|s| - |r|..]
            && AllSpace(s[..|s| - |r|])
            && (r == [] || !IsSpace(r[0]))
  {
    if |s| > 0 && IsSpace(s[0]) {
      TrimStartCut(s[1..]);
      var r := TrimStart(s[1..]);
      assert s[..|s| - |r|] == [s[0]] + s[1..][..|s| - 1 - |r|];
    }
  }

  /** `TrimEnd` keeps a prefix, cuts only white space, and leaves no trailing white space. */
  lemma {:induction false} TrimEndCut(s: string)
    ensures var r := TrimEnd(s);
            && |r| <= |s| && r == s[..|r|]
            && AllSpace(s[|r|..])
            && (r == [] || !IsSpace(r[|r| - 1]))
  {
    if |s| > 0 && IsSpace(s[|s| - 1]) {
      TrimEndCut(s[..|s| - 1]);
      var r := TrimEnd(s[..|s| - 1]);
      assert s[|r|..] == s[..|s| - 1][|r|..] + [s[|s| - 1]];
    }
  }

  /**
   * What `trim` promises: the result is the slice of `s` left after cutting
   * white space from both ends; it is empty exactly when `s` is all white
   * space, and a non-empty result starts and ends with a non-space character.
   */
  lemma TrimSpec(s: string)
    ensures Trim(s) == [] <==> AllSpace(s)
    ensures Trim(s) != [] ==> !IsSpace(Trim(s)[0]) && !IsSpace(Trim(s)[|Trim(s)| - 1])
    ensures exists i :: CutOf(s, i, Trim(s))
  {
    var t := TrimStart(s);
    var r := TrimEnd(t);
    var i := |s| - |t|;
    TrimStartCut(s);
    TrimEndCut(t);
    assert t == s[i..];
    assert r == t[..|r|];
    assert s[i + |r|..] == t[|r|..];
    assert CutOf(s, i, r);
    if r == [] {
      AllSpaceJoin(s, i);
    } else {
      assert s[i] == r[0];
    }
  }

  /** A string whose two sides of a cut are all space is all space. */
  lemma AllSpaceJoin(s: string, i: nat)
    requires i <= |s| && AllSpace(s[..i]) && AllSpace(s[i..])
    ensures AllSpace(s)
  {
    forall k | 0 <= k < |s| ensures IsSpace(s[k]) {
      if k < i {
        assert s[k] == s[..i][k];
      } else {
        assert s[k] == s[i..][k - i];
      }
    }
  }

  /** Lower-casing maps every character on its own and keeps the length. */
  lemma {:induction false} ToLowerSpec(s: string)
    ensures |ToLower(s)| == |s|
    ensures forall i :: 0 <= i < |s| ==> ToLower(s)[i] == LowerChar(s[i])
  {
    if |s| > 0 {
      ToLowerSpec(s[1..]);
    }
  }

  /** Trimming twice is trimming once. */
  lemma TrimIdempotent(s: string)
    ensures Trim(Trim(s)) == Trim(s)
  {
    var r := Trim(s);
    TrimSpec(s);
    if r != [] {
      assert TrimStart(r) == r;
      assert TrimEnd(r) == r;
    }
  }

  /** A key is blank exactly when the answer is white space only. */
  lemma KeyBlankIff(s: string)
    ensures Key(s) == [] <==> AllSpace(s)
  {
    TrimSpec(s);
    ToLowerSpec(Trim(s));
  }

  /** Trimming before keying changes nothing: a trimmed submission keeps its key. */
  lemma KeyOfTrim(s: string)
    ensures Key(Trim(s)) == Key(s)
  {
    TrimIdempotent(s);
  }
}

=== FILE: wrappers.dfy ===
/** Failure-compatible wrappers shared by the whole model. */
module Wrappers {

  /** A value that may be absent: `null`, `undefined` or a non-finite number in the source. */
  datatype Option<+T> = None | Some(value: T)

  /** The outcome of a call into the remote row store: a value or an error message. */
  datatype Result<+R, +E> = Success(value: R) | Failure(error: E)
}
